=== FILE: README.md ===
# Tank duel controllers: decision and learning logic

This project models the decision-and-learning core of the tank controllers in
a two-tank duel simulator. Each controller receives one telemetry frame per
tank per tick and sends back one command. The model covers:

- the steering heuristics: the lock bearing, the approach drive, the orbit
  drive and the fire gate;
- the state discretization `get_state`;
- the action lists and their indexing;
- the tabular Q-learner, with epsilon-greedy choice, first-maximum
  tie-breaking and the one-entry update;
- terminator.py's delayed-reward tracker, with its single-flight gate;
- the immediate reward of terminator_2.py and test_q.py;
- the one-shot command code and the `heatup` countdown of `Command`;
- one tick of each controller's `run` loop: terminator.py, terminator_2.py,
  test_q.py, sin_q.py and test.py.

Floats are Dafny `real`s:

- Python's `//` is `PyMath.FloorDiv` (floor toward minus infinity).
- `%` is `PyMath.PyMod` (a non-negative remainder).
- `int()` is `PyMath.Trunc` (toward zero).

The `atan2` bearing in degrees (range [-180, 180]) and the `sqrt` distance
(range at least 0) are inputs, bundled as a `Telemetry.Sighting`. The
uniform draw and the random index of epsilon-greedy are parameters named
`draw` and `pick`.

Python locals that keep their value from one loop iteration to the next are
fields of each controller record. These are the driving values, the chosen
action, and terminator.py's loop variable `reward_item`. Reading one that was
never bound crashes the Python loop; here it returns `Err` with a `Fault`.
sin_q.py and test.py bind the `command` object only for tank 1 or tank 2.
For any other tank, every tick of theirs fails with `UnboundCommand`.

Each controller's `Tick` starts from a pair of frames that has already been
resolved to the controlled tank and its enemy. `Telemetry.SelectPair` is the
pairing step that every `run` loop performs before that: a tick proceeds
only on a participant-1 frame followed by a participant-2 frame.

Modules and files:

| file | module | covers |
|---|---|---|
| outcomes.dfy | Outcomes | `Option`, `Result` |
| pymath.dfy | PyMath | `//`, `%`, `int()`, `abs`, `np.clip` on reals |
| geometry.dfy | Geometry | `lock_enemigo`, `acercar_enemigo`, `circular_enemigo`, the fire gate |
| telemetry.dfy | Telemetry | frames, sightings, pairing of the two frames of a tick |
| encoding.dfy | StateEncoding | `get_state` (14 and 11 components) |
| actions.dfy | ActionSpace | `acciones` of terminator.py and terminator_2.py, `list.index` |
| qlearning.dfy | QLearning | Q table, `choose_action`, `update_q_table` |
| tracker.dfy | DelayedReward | terminator.py's delayed rewards |
| rewards.dfy | ImmediateReward | the reward rule of terminator_2.py and test_q.py |
| command.dfy | Commands | `Command.py` |
| termination.dfy | Termination | the end-of-episode checks shared by terminator.py and terminator_2.py |
| terminator.dfy | Terminator | one tick of terminator.py |
| terminator2.dfy | Terminator2 | one tick of terminator_2.py |
| testq.dfy | TestQ | one tick of test_q.py |
| sinq.dfy | SinQ | one tick of sin_q.py |
| testdriver.dfy | TestDriver | one tick of test.py |

## Model

| member | source | states |
|---|---|---|
| PyMath.FloorDiv | terminator.py:152-165 | `x // w` for w > 0 is the unique integer k with k*w <= x < (k+1)*w |
| PyMath.FloorDivMonotone | terminator.py:152-165 | floor division by a positive width never decreases as its input grows |
| PyMath.PyMod | terminator.py:73-74 | `a % m` lies in [0, m) and differs from a by a whole multiple of m |
| PyMath.PyModAddLeft | terminator.py:73-74 | reducing a partial sum first gives the same remainder as reducing the whole sum |
| PyMath.Trunc | terminator.py:261 | `int(x)` rounds toward zero: within 1 of x, on the side of zero |
| PyMath.TruncBelow | terminator.py:261 | `int(h) < 50` holds exactly when h < 50, for every real h |
| PyMath.Clip | terminator.py:96 | `np.clip` stays within [lo, hi], is the identity inside, and saturates to the nearer bound outside |
| Geometry.SimBearing | sin_q.py:58-59 | the twice-reduced bearing lies in [0, 360) for every input and offset |
| Geometry.SimBearingIdempotent | sin_q.py:58-59 | reducing the already reduced bearing modulo 360 once more changes nothing |
| Geometry.SimBearingIsRotation | test.py:86-87 | the two reductions equal one rotation of the raw angle by the offset, modulo 360 |
| Geometry.LockBearing | terminator.py:76 | the turret bearing plus the hull bearing, minus 180, is the enemy bearing; it lies in (-180, 540) for bearings in [0, 360) |
| Geometry.LockBearingUnwrapped | test.py:72 | the lock bearing is not wrapped: it can leave [0, 360) on either side |
| Geometry.ThrustFor | terminator.py:98-101 | thrust is 3 exactly when abs(steering) >= 15, and 10 otherwise |
| Geometry.Approach | terminator_2.py:90-100 | steering lies in [-15, 15], equals the half-turned offset when that is in range and the nearer limit otherwise; thrust is 3 exactly at a limit |
| Geometry.Orbit | sin_q.py:101-112 | steering lies in (-180, 180] and is congruent modulo 360 to bearing + 90 - hull; thrust is 3 exactly when abs(steering) >= 15 |
| Geometry.FireGate | terminator_2.py:102-108 | fires exactly when the bearing moved at least the threshold since the last shot; the remembered angle changes only on firing, to the bearing |
| Geometry.FireGateSettles | terminator_2.py:102-108 | right after firing at a bearing, the gate does not fire again at that same bearing |
| Geometry.FirstGateFires | sin_q.py:37 | starting from -3, the first gate call fires for any threshold up to 3, since every bearing is at least 0 |
| Telemetry.SelectPair | terminator.py:190-203 | a tick proceeds exactly when the frames come as participant 1 then 2; tank 1 controls frame 1 and any other tank frame 2 |
| StateEncoding.Bucket | terminator.py:152-165 | each component is the index of the width-w bucket holding its value |
| StateEncoding.Encode | terminator.py:150-167 | every component of the 14-tuple lies in the bucket of its input (with the 1e-9 nudges), and the drift terms are `Drift` of the previous and current coordinate |
| StateEncoding.EncodeShort | test_q.py:129-143 | test_q.py's 11-tuple is the first eleven components of the 14-tuple built without nudges |
| StateEncoding.BucketIsFloor | terminator.py:152-165 | any value in [k*w, (k+1)*w) lands in bucket k, so readings in the same buckets give the same state |
| StateEncoding.BucketMonotone | terminator.py:152-165 | every bucketed component is monotone non-decreasing in its input |
| StateEncoding.BucketWithin | terminator.py:152-165 | values in [lo*w, hi*w) fall in buckets lo to hi-1 |
| StateEncoding.BucketFloorsNegatives | terminator.py:157 | a negative steering of -0.5 lands in bucket -1, where truncating the quotient would give 0 |
| StateEncoding.ThrustBuckets | terminator.py:156 | the two thrust levels 3 and 10 fall in buckets 0 and 3 |
| StateEncoding.DeclinationBucketZero | terminator_2.py:154 | any declination in [0, 10), including the levels 0..5, is bucket 0 |
| StateEncoding.BearingBuckets | terminator.py:152 | a bearing in [0, 360) is bucket 0..9; with the 1e-9 nudge it is 0..10, and 10 when within 1e-9 of 360 |
| StateEncoding.ApproachSteeringBuckets | terminator.py:157 | approach steering in [-15, 15] falls in buckets -5..5 |
| StateEncoding.DriftIsNotBucketChange | terminator.py:163-164 | the drift term is the previous raw coordinate minus the current bucket, not a bucket change: a still enemy reads 0 at the origin but 248 at x = 250 |
| StateEncoding.Drift | terminator.py:163-164 | the drift is the previous coordinate minus the current bucket truncated towards zero: within one unit of that difference and with its sign |
| StateEncoding.DriftMonotone | terminator.py:163-164 | the drift term grows with the previous coordinate and shrinks as the current one grows |
| ActionSpace.Declination | terminator.py:48 | `linspace(0, 2.5, 6)[d]` is d * 0.5 |
| ActionSpace.Correction | terminator.py:48 | `linspace(-2.5, 2.5, 11)[c]` is c * 0.5 - 2.5 |
| ActionSpace.ConcatAt | terminator.py:48 | in a nested comprehension of equal-length blocks, entry j of block i sits at i*k + j |
| ActionSpace.FireBlockAt | terminator.py:48 | each fire-flag block of the combined list has 66 entries with (d, c) at d*11 + c |
| ActionSpace.CombinedActions | terminator.py:48 | no contract of its own; `CombinedActionAt` and `CombinedActionDecode` state its length and layout |
| ActionSpace.CombinedActionAt | terminator.py:48 | the combined list has 132 entries, the zero-row length, and action (f, d, c) sits at f*66 + d*11 + c |
| ActionSpace.CombinedActionDecode | terminator.py:48 | every index below 132 decodes into fire flag i/66, declination level (i%66)/11 and correction i%11 |
| ActionSpace.CombinedAction | terminator.py:221 | the action at index a has fire flag 0 or 1 and the decoded declination and correction |
| ActionSpace.IndexOf | terminator.py:172 | `list.index` gives the first position holding x, and None only when no position does |
| ActionSpace.CombinedDistinct | terminator.py:48 | different indices of the combined list hold different actions |
| ActionSpace.CombinedIndexOf | terminator.py:176-178 | `acciones.index(acciones[i]) == i`, so an action and its index identify each other |
| ActionSpace.ReducedActions | terminator_2.py:50 | no contract of its own; `ReducedActionAt` and `ReducedActionRange` state its length and layout |
| ActionSpace.ReducedActionAt | terminator_2.py:50 | the reduced list has 66 entries, the zero-row length, and (d, c - 5) sits at d*11 + c |
| ActionSpace.ReducedActionRange | terminator_2.py:50 | every reduced action has level 0..5 and correction -5..5, and `index` recovers its position |
| QLearning.Zeros | terminator.py:15-16 | the default row has n entries, all zero |
| QLearning.Lookup | terminator.py:38 | a lookup never fails: a stored row or, for an unseen state, the zero row of length n |
| QLearning.ArgMax | terminator.py:172 | returns an index holding the maximum with every earlier entry strictly smaller: the first maximum |
| QLearning.ArgMaxUnique | test_q.py:148 | the first-maximum index is the only index with both properties |
| QLearning.MaxValue | terminator.py:175-176 | the TD target's best value is an entry of the row and bounds every entry |
| QLearning.ChooseAction | terminator.py:169-172 | explores the given index below epsilon; otherwise returns the first maximal action of the state's row |
| QLearning.ExploitUnseen | terminator.py:172 | exploiting an unseen state picks action 0 |
| QLearning.FractionBounds | terminator.py:176-178 | a learning-rate share 0 < alpha < 1 of a TD error keeps the error's sign and is strictly smaller in size |
| QLearning.BlendContracts | terminator.py:176-178 | with 0 < alpha < 1 the new value lies strictly between old value and target when they differ, and equals the old value when they agree |
| QLearning.BlendGap | terminator.py:176-178 | the gap left to the target after one step is the fraction 1 - alpha of the gap before it |
| QLearning.Update | terminator.py:174-178 | only entry a of row s changes, to old + alpha * (reward + gamma * max Q[next] - old); other rows and entries are unchanged and the table stays well formed |
| QLearning.UpdateFrame | terminator.py:178 | read through the zero default, every other state's row is unchanged |
| QLearning.UpdateTowardsTarget | terminator.py:176-178 | the updated entry moves strictly toward the TD target and never past it |
| DelayedReward.Initial | terminator.py:50-51 | a new tracker has an empty queue and an open gate |
| DelayedReward.ShotReward | terminator.py:243-248 | twenty times the health drop when health dropped since the shot; otherwise -50; positive exactly when health dropped |
| DelayedReward.CountDown | terminator.py:239-253 | kept and resolved shots together account for the queue, kept countdowns are at least 1, an all-pending queue is decremented entry by entry, and an all-due queue is resolved entry by entry |
| DelayedReward.CountDownKeeps | terminator.py:239-242 | for any queue, mixed or not, the kept shots are exactly the ones whose decremented countdown stays positive, in queue order, each one lower |
| DelayedReward.CountDownResolves | terminator.py:241-252 | for any queue, the resolutions are exactly the shots whose decremented countdown reaches zero or below, in queue order, each rewarded against the current health |
| DelayedReward.Step | terminator.py:220-253 | a shot is queued only with the gate open; a resolution opens the gate; otherwise the gate is closed exactly when it was closed or a shot was offered |
| DelayedReward.InitialInv | terminator.py:50-51 | the new tracker satisfies the single-flight invariant |
| DelayedReward.StepInv | terminator.py:220-253 | every tick keeps the queue at most one shot, non-empty exactly while the gate is closed, with countdown 1..149 |
| DelayedReward.FireTick | terminator.py:224-241 | with the gate open a fire decision is queued and counted down once in the same tick, leaving 149 and the gate closed |
| DelayedReward.WaitTick | terminator.py:238-241 | with a shot in flight, fire decisions are ignored and the countdown drops by one |
| DelayedReward.ResolveTick | terminator.py:241-253 | the tick that reaches zero resolves the shot against that tick's health, removes it and opens the gate |
| DelayedReward.CountdownToResolution | terminator.py:228-253 | a shot in flight with countdown d resolves on the d-th tick and on no earlier one, against that tick's health, whatever fire decisions are offered meanwhile, and opens the gate |
| DelayedReward.ResolvedExactlyOnce | terminator.py:228-253 | a shot fired with the gate open resolves exactly once, on its 150th decrement, rewarded against that tick's health; afterward the gate is open |
| DelayedReward.StepActions | terminator.py:228-251 | action indices in flight, resolved or visited are ones that were queued |
| ImmediateReward.Reward | terminator_2.py:220-227 | 0 when not fired; when fired, the health drop if the previous health is known and dropped, else the penalty |
| ImmediateReward.RewardSign | terminator_2.py:222-227 | with a negative penalty, a firing tick is rewarded positively exactly when health is known to have dropped, and never 0 |
| ImmediateReward.FirstShotPenalized | terminator_2.py:224-227 | firing before any previous health is recorded earns the penalty |
| Commands.NewCommand | Command.py:15-17 | a new command has code 0 and heatup 100 |
| Commands.Fire | Command.py:25-26 | `fire()` sets code 11 and leaves heatup alone |
| Commands.Send | Command.py:28-69 | the record carries the current code, the driving values in wire order, yaw 0, bank 0, faction 1 and zero reserved fields; afterward the code is 0 and heatup has dropped by one if positive |
| Commands.FireSentOnce | Command.py:57-69 | a fire request goes out in the next record and not in the one after |
| Commands.SendTimes | Command.py:67-69 | after one or more sends the code is 0 |
| Commands.HeatupAfterSends | Command.py:67-68 | after n sends heatup is h - n while n <= h and 0 afterward |
| Commands.HeatupExhausted | Command.py:67-68 | a fresh command has heatup 0 after 100 or more sends |
| Terminator.Start | terminator.py:35-51 | the new controller has an empty table, an open gate, code 0 and heatup 100, and is sound |
| Terminator.SelectDrive | terminator.py:209-213 | approach beyond 300, circle below 100, and keep the previous tick's driving values in between |
| Terminator.Decide | terminator.py:220-233 | with the gate closed nothing is chosen and the plain lock bearing is used; with it open the chosen correction is added, and a shot is offered with `fire()` exactly for a fire action |
| Terminator.Learn | terminator.py:238-253 | the updates of the resolved shots keep the table well formed; only states some resolution mentions can become new keys, and every row of a state none mentions is unchanged |
| Termination.Terminate | terminator.py:261-281 | enemy health truncating below 50, the timer past the controller's limit (4900 in terminator.py, 4000 in terminator_2.py) or power below 10 each set code 13; otherwise the command is unchanged; heatup is never touched |
| Terminator.Tick | terminator.py:205-286 | fails with an unbound drive exactly when no distance band ever bound one; otherwise sends with the controller's tank and the frame's timer, clears the code and keeps the stored action indices below 132 |
| Terminator.TickSends | terminator.py:209-285 | beyond 300 a completed tick sends the approach thrust and steering, below 100 the circling ones; while a shot is in flight it sends the plain lock bearing and the held action's declination, otherwise the lock bearing plus the chosen action's correction and that action's declination |
| Terminator.TickFaults | terminator.py:219-263 | on a sound controller `turretdecl` is always bound; the tick crashes on `reward_item` exactly when a drive is bound, the enemy is destroyed, no shot was ever visited or is in flight, and the chosen action does not fire |
| Terminator.TickSound | terminator.py:205-286 | every completed tick keeps the controller sound: single flight, an action bound while waiting, code 0 |
| Terminator.FireOnlyWhenIdle | terminator.py:220-233 | a fire code goes out only on a tick that found the gate open; that tick leaves exactly one shot queued, with 149 ticks to go and the current health |
| Terminator.ResetOnLimits | terminator.py:261-283 | on any termination condition the code sent is 13; otherwise it is 0 or 11 |
| Terminator.FirstTickInGap | terminator.py:209-217 | a first tick at distance 100..300 reads unbound driving values |
| Terminator.GapKeepsDrive | terminator.py:209-213 | later ticks at distance 100..300 send the previous tick's thrust and steering |
| Terminator.DestroyedBeforeAnyShot | terminator.py:261-263 | one concrete instance of the `reward_item` crash: on the very first tick, beyond 300, an explored non-firing action with the enemy destroyed |
| Terminator.ResolutionLearns | terminator.py:241-253 | the tick that resolves a shot applies the one-entry update with the shot's reward, bootstrapped from the current state, and opens the gate |
| Terminator.DestroyedCreditsWaitingShot | terminator.py:238-263 | with a shot still counting down and the enemy destroyed, that shot gets the 5000 update before it is evaluated, and code 13 is sent |
| Terminator.DestroyedCreditsResolvedShot | terminator.py:238-263 | on the tick that resolves a shot with the enemy destroyed, the shot gets its health-drop update and then the 5000 update, and code 13 is sent |
| Terminator.DestroyedRecreditsLastShot | terminator.py:238-263 | with the gate open and the enemy destroyed, the 5000 update goes to the last shot the countdown visited: the one queued this tick, or else an earlier shot that has already been resolved, again on every such tick |
| Terminator.QuietTick | terminator.py:238-263 | with no resolution and the enemy alive, the Q table is unchanged |
| Terminator2.Start | terminator_2.py:37-47 | the new controller has an empty table, code 0, no previous health and gate angle -3 |
| Terminator2.Perceive | terminator_2.py:203-211 | the tick always approaches, consults the threshold-1 gate on the enemy bearing, takes the turret bearing as the sighting rotated by the offset modulo 360, and the state is `Encode` of the percept with declination bucket 0 |
| Terminator2.NextState | terminator_2.py:229 | no contract of its own; `NextStateOnlyTurret` states how the rebuilt state relates to the tick's state |
| Terminator2.TickReward | terminator_2.py:220-227 | the reward is 0 exactly when the gate stays shut, and positive only on a firing tick after a known health drop |
| Terminator2.Action | terminator_2.py:50 | the action at index a is level a/11 and correction a%11 - 5 |
| Terminator2.Tick | terminator_2.py:203-260 | keeps the table well formed, records the enemy's health and position, clears the code; sends the approach thrust and steering, the chosen action's declination level a/11 (hence in [0, 5]) and the lock bearing plus its correction a%11 - 5 |
| Terminator2.NextStateOnlyTurret | terminator_2.py:211-229 | the rebuilt state equals the tick's state except possibly in the turret-bearing bucket |
| Terminator2.TickCommand | terminator_2.py:102-108 | code 13 on a termination condition, else 11 exactly when the gate fired; the gate angle changes only on firing |
| Terminator2.TickRewardRule | terminator_2.py:220-227 | reward 0 with the gate shut; on a firing tick the positive health drop, else -50 |
| Terminator2.TickLearns | terminator_2.py:229-230 | exactly the chosen entry of the tick's state moves toward reward + 0.95 * max Q[rebuilt state]; nothing else changes |
| Terminator2.FirstTickPenalized | terminator_2.py:220-227 | the first tick always fires and is penalized -50 |
| Terminator2.AimWithinCorrection | terminator_2.py:214-217 | the commanded turret bearing is within 5 degrees of the lock bearing |
| TestQ.Start | test_q.py:32-38 | the new controller has an empty two-value table, code 0, no previous health and gate angle -3 |
| TestQ.Perceive | test_q.py:185-190 | below 500 the tick circles with the threshold-0.1 gate; at or beyond 500 (hence beyond 300) it approaches without firing; the turret bearing is the sighting rotated by the offset modulo 360, and the state is `EncodeShort` of the percept |
| TestQ.TickReward | test_q.py:199-206 | a firing tick never earns 0; with a normal command and the gate shut it earns 0; a positive reward needs a known health drop |
| TestQ.Tick | test_q.py:180-217 | keeps the table well formed, records the enemy's health, clears the code; sends the perceived drive's thrust and steering, the lock bearing, and the chosen action index as the declination (hence 0 or 1) |
| TestQ.ExploitBinary | test_q.py:148 | exploiting picks action 1 exactly when its value is strictly larger; ties go to 0 |
| TestQ.TickSelfTransition | test_q.py:195-209 | the update bootstraps from the same state's own row, and only the chosen entry changes |
| TestQ.TickRewardRule | test_q.py:199-206 | code 11 is sent exactly when the circling gate fires; reward 0 otherwise, else the positive health drop or -10 |
| SinQ.Start | sin_q.py:37 | the new controller has gate angle -3, code 0 and no driving values |
| SinQ.Tick | sin_q.py:128-172 | fails on the unbound `command` exactly when the tank is neither 1 nor 2; otherwise fails on unbound driving values exactly on a first tick with distance in [0, 1]; otherwise sends declination 0, the lock bearing plus 1, and the thrust and steering of the drive it keeps, which is the approach beyond 1, the circling below 0 and the previous drive in between; and clears the code |
| SinQ.NeverFires | sin_q.py:158-167 | on a valid sighting nothing fires, the gate angle stays, the turret aims at bearing - hull + 181, and beyond 1 tank 1 or 2 approaches |
| SinQ.OrbitGate | sin_q.py:117-123 | were the circling branch reached, tank 1 or 2 would fire exactly when the bearing moved at least 3, and any other tank would crash on `command` there |
| TestDriver.Start | test.py:147 | the new controller keeps the episode's offset in [0, 360) and starts with code 0 and no driving values |
| TestDriver.Tick | test.py:141-205 | fails on the unbound `command` exactly when the tank is neither 1 nor 2; otherwise fails on unbound driving values exactly on a first tick at distance 0; otherwise sends the current code, declination 0, the lock bearing, and the thrust and steering of the drive it keeps, which is the approach along the offset bearing at positive distance and the previous drive otherwise; and clears the code |
| TestDriver.NeverFires | test.py:180-205 | every record sent carries code 0 |
| TestDriver.ApproachWithOffset | test.py:86-105 | for tank 1 or 2, approaching steers by the bearing rotated by the offset, modulo 360, clipped to [-15, 15] with the thrust rule, and the turret bearing is the unwrapped lock; any other tank crashes on `command` |

## Left out

- Sockets, `recvfrom`, ports, the 5-second timeout and the `struct` layouts: I/O. A tick starts from two decoded frames. In terminator.py, terminator_2.py and test_q.py the timeout ends the loop through `except socket.timeout`; this exit is not modelled. In sin_q.py and test.py that handler is commented out, so a timeout ends the loop by an uncaught exception. In every controller the faults that this model returns as `Err` end the loop as well.
- The tank number is an `int`: every `__init__` converts its argument with `int()` (terminator.py:22, terminator_2.py:24, test_q.py:19, sin_q.py:17, test.py:29). A number other than 1 or 2 is the "any other tank" case: terminator.py, terminator_2.py and test_q.py control the second frame, and sin_q.py and test.py fail with `UnboundCommand`. A non-numeric argument raises `ValueError` in the constructor, before any tick, which is not modelled.
- Telemetry.SelectPair: judges one pair of frames. The loop drops a first frame that is not participant 1 and reads the next datagram as a new first frame; it drops both frames when the second is not participant 2. That re-synchronisation over the datagram stream is not modelled: an out-of-order pair simply yields no tick.
- `read()` returning `None` on a short datagram, which the loop would then index: the model assumes decoded frames.
- `TelemetryDictionary`: it is not part of this model. Frames have named fields instead of indices.
- `pickle` load and save of the Q table, and `Recorder` logging (Command.py:71-112): file I/O.
- EpisodeRecorder.py: socket plus logging.
- `math.atan2`, `math.degrees`, `math.sqrt`: the bearing and the distance are inputs.
- Float rounding, 32-bit float packing of the command record, and NaN: reals are exact.
- `np.random` and `random.choice`: passed in as `draw`, `pick` and test.py's `offset`.
- `defaultdict` inserting a zero row on read: `QLearning.Lookup` returns the zero row without storing it. The difference shows only in the key set of the saved table.
- `previous_enemy_health` in terminator.py: written each tick, never read.
- `circular_enemigo` of terminator_2.py (gate threshold 1) and of test.py: defined but never called by their `run`. Their steering is `Geometry.Orbit`.
- The commented-out gate in terminator.py's steering functions.
- Terminator.Tick: the three Python faults are ordered as the source reads the locals. The `turretdecl` fault cannot happen, since the first tick always chooses and a sound controller holds an action whenever a shot is in flight. `Terminator.TickFaults` states this, together with the exact condition for the `reward_item` fault.
- Termination: the three conditions only set code 13 and the loop keeps running, as the code does. The model has no terminated state.
- First-tick reward: terminator_2.py and test_q.py penalize a shot on the first tick, where no previous health exists. The code is followed, not a neutral first-cycle reward.

=== FILE: actions.dfy ===
/** The controllers' finite action lists. An action's identity is its position
    in the list, which the learners use as the column of the Q-table row. */
module ActionSpace {
  import opened Outcomes

  /** Row length of terminator.py's `default_q_value`:
      len(range(2)) * len(range(6)) * len(range(-5, 6)). */
  const CombinedRowLength: nat := 2 * 6 * 11
  /** Row length of terminator_2.py's `default_q_value`: len(range(6)) * len(range(-5, 6)). */
  const ReducedRowLength: nat := 6 * 11
  /** test_q.py's rows hold one value for each of the actions 0 and 1. */
  const BinaryRowLength: nat := 2

  /** terminator.py's action: fire flag, turret declination, bearing correction. */
  datatype FireAction = FireAction(fire: int, declination: real, correction: real)

  /** terminator_2.py's action: turret declination level and bearing correction. */
  datatype AimAction = AimAction(declination: int, correction: int)

  /** Flattening of a nested list comprehension: the blocks one after another. */
  function Concat<T>(blocks: seq<seq<T>>): seq<T>
  {
    if blocks == [] then [] else blocks[0] + Concat(blocks[1..])
  }

  /** Every block has length k. */
  predicate Uniform<T>(blocks: seq<seq<T>>, k: nat)
  {
    forall b | 0 <= b < |blocks| :: |blocks[b]| == k
  }

  /** Dropping the first block keeps the blocks uniform. */
  lemma UniformTail<T>(blocks: seq<seq<T>>, k: nat)
    requires Uniform(blocks, k) && blocks != []
    ensures Uniform(blocks[1..], k)
  {
    forall b | 0 <= b < |blocks| - 1
      ensures |blocks[1..][b]| == k
    {
      assert blocks[1..][b] == blocks[b + 1];
    }
  }

  /** Flattening blocks of equal length k gives k entries per block. */
  lemma {:induction false} ConcatLength<T>(blocks: seq<seq<T>>, k: nat)
    requires Uniform(blocks, k)
    ensures |Concat(blocks)| == |blocks| * k
  {
    if blocks != [] {
      UniformTail(blocks, k);
      ConcatLength(blocks[1..], k);
      assert |blocks| * k == k + (|blocks| - 1) * k;
    }
  }

  /** In a flattening of blocks of equal length k, entry j of block i sits at
      position i * k + j. */
  lemma {:induction false} ConcatAt<T>(blocks: seq<seq<T>>, k: nat, i: nat, j: nat)
    requires Uniform(blocks, k)
    requires i < |blocks| && j < k
    ensures i * k + j < |Concat(blocks)|
    ensures Concat(blocks)[i * k + j] == blocks[i][j]
  {
    var rest := blocks[1..];
    UniformTail(blocks, k);
    ConcatLength(rest, k);
    assert Concat(blocks) == blocks[0] + Concat(rest);
    if i > 0 {
      ConcatAt(rest, k, i - 1, j);
      assert i * k + j == k + ((i - 1) * k + j);
      assert rest[i - 1] == blocks[i];
    }
  }

  /** numpy's `linspace(lo, hi, n)[i]`: n evenly spaced values from lo to hi. */
  function Linspace(lo: real, hi: real, n: nat, i: int): real
    requires n >= 2
  {
    lo + i as real * (hi - lo) / (n - 1) as real
  }

  /** terminator.py's declination levels `linspace(0, 2.5, 6)`. */
  function Declination(d: int): (v: real)
    ensures v == d as real * 0.5
  {
    Linspace(0.0, 2.5, 6, d)
  }

  /** terminator.py's bearing corrections `linspace(-2.5, 2.5, 11)`. */
  function Correction(c: int): (v: real)
    ensures v == c as real * 0.5 - 2.5
  {
    Linspace(-2.5, 2.5, 11, c)
  }

  /** The 66 actions sharing fire flag f: declination outermost, then correction. */
  function FireBlock(f: int): seq<FireAction>
  {
    Concat(seq(6, d => seq(11, c => FireAction(f, Declination(d), Correction(c)))))
  }

  /** terminator.py's `acciones`: fire flag outermost, then declination, then
      bearing correction, as the nested comprehension lists them. */
  function CombinedActions(): seq<FireAction>
  {
    Concat(seq(2, FireBlock))
  }

  /** Each fire-flag block has 66 entries, with (d, c) at d*11 + c. */
  lemma FireBlockAt(f: int, d: nat, c: nat)
    requires d < 6 && c < 11
    ensures |FireBlock(f)| == 66
    ensures FireBlock(f)[d * 11 + c] == FireAction(f, d as real * 0.5, c as real * 0.5 - 2.5)
  {
    var blocks := seq(6, d' => seq(11, c' => FireAction(f, Declination(d'), Correction(c'))));
    assert Uniform(blocks, 11);
    ConcatLength(blocks, 11);
    ConcatAt(blocks, 11, d, c);
  }

  /** The list has 132 entries, as many as a default Q row, and the action
      (f, d, c) sits at index f*66 + d*11 + c. */
  lemma CombinedActionAt(f: nat, d: nat, c: nat)
    requires f < 2 && d < 6 && c < 11
    ensures |CombinedActions()| == CombinedRowLength
    ensures CombinedActions()[f * 66 + d * 11 + c] == FireAction(f, d as real * 0.5, c as real * 0.5 - 2.5)
  {
    var outer := seq(2, FireBlock);
    assert Uniform(outer, 66) by {
      FireBlockAt(0, 0, 0);
      FireBlockAt(1, 0, 0);
    }
    ConcatLength(outer, 66);
    ConcatAt(outer, 66, f, d * 11 + c);
    FireBlockAt(f, d, c);
  }

  /** Every index of the combined list decodes into its three coordinates. */
  lemma CombinedActionDecode(i: nat)
    requires i < CombinedRowLength
    ensures |CombinedActions()| == CombinedRowLength
    ensures CombinedActions()[i] ==
      FireAction(i / 66, ((i % 66) / 11) as real * 0.5, (i % 11) as real * 0.5 - 2.5)
  {
    var f, d, c := i / 66, (i % 66) / 11, i % 11;
    assert i == f * 66 + d * 11 + c;
    CombinedActionAt(f, d, c);
  }

  /** `acciones[a]`: the combined action at index a, decoded. */
  function CombinedAction(a: nat): (act: FireAction)
    requires a < CombinedRowLength
    ensures act == FireAction(a / 66, ((a % 66) / 11) as real * 0.5, (a % 11) as real * 0.5 - 2.5)
    ensures act.fire == 0 || act.fire == 1
  {
    CombinedActionDecode(a);
    CombinedActions()[a]
  }

  /** Python's `list.index`: the first position holding x, if any. */
  function IndexOf<T(==)>(s: seq<T>, x: T): (r: Option<nat>)
    ensures r.Some? ==> r.value < |s| && s[r.value] == x
    ensures r.Some? ==> forall j | 0 <= j < r.value :: s[j] != x
    ensures r.None? ==> forall j | 0 <= j < |s| :: s[j] != x
  {
    if s == [] then None
    else if s[0] == x then Some(0)
    else match IndexOf(s[1..], x)
      case None => None
      case Some(k) => Some(k + 1)
  }

  /** In a list without repeats, `index` of the entry at i is i. */
  lemma IndexOfDistinct<T>(s: seq<T>, i: nat)
    requires i < |s|
    requires forall j | 0 <= j < |s| && j != i :: s[j] != s[i]
    ensures IndexOf(s, s[i]) == Some(i)
  {
  }

  /** `acciones.index(acciones[i]) == i`: the combined actions are pairwise
      distinct, so an action and its index identify each other. */
  lemma CombinedIndexOf(i: nat)
    requires i < CombinedRowLength
    ensures |CombinedActions()| == CombinedRowLength
    ensures IndexOf(CombinedActions(), CombinedActions()[i]) == Some(i)
  {
    CombinedActionAt(0, 0, 0);
    var s := CombinedActions();
    forall j | 0 <= j < |s| && j != i
      ensures s[j] != s[i]
    {
      CombinedDistinct(i, j);
    }
    IndexOfDistinct(s, i);
  }

  /** Two different indices of the combined list hold different actions. */
  lemma CombinedDistinct(i: nat, j: nat)
    requires i < CombinedRowLength && j < CombinedRowLength && i != j
    ensures |CombinedActions()| == CombinedRowLength
    ensures CombinedActions()[i] != CombinedActions()[j]
  {
    CombinedActionDecode(i);
    CombinedActionDecode(j);
    var f, d, c := i / 66, (i % 66) / 11, i % 11;
    var f', d', c' := j / 66, (j % 66) / 11, j % 11;
    assert i == f * 66 + d * 11 + c;
    assert j == f' * 66 + d' * 11 + c';
    if f == f' && d == d' && c == c' {
      assert false;
    }
  }

  /** terminator_2.py's `acciones`: declination 0..5 outermost, then bearing
      correction -5..5. */
  function ReducedActions(): seq<AimAction>
  {
    Concat(seq(6, d => seq(11, c => AimAction(d, c - 5))))
  }

  /** The reduced list has 66 entries, as many as its default Q row, and the
      action (d, c - 5) sits at index d*11 + c. */
  lemma ReducedActionAt(d: nat, c: nat)
    requires d < 6 && c < 11
    ensures |ReducedActions()| == ReducedRowLength
    ensures ReducedActions()[d * 11 + c] == AimAction(d, c - 5)
  {
    var blocks := seq(6, d' => seq(11, c' => AimAction(d', c' - 5)));
    assert Uniform(blocks, 11);
    ConcatLength(blocks, 11);
    ConcatAt(blocks, 11, d, c);
  }

  /** Every reduced action has a declination level in 0..5 and a correction
      in -5..5, and `index` recovers its position. */
  lemma ReducedActionRange(i: nat)
    requires i < ReducedRowLength
    ensures |ReducedActions()| == ReducedRowLength
    ensures ReducedActions()[i] == AimAction(i / 11, i % 11 - 5)
    ensures 0 <= ReducedActions()[i].declination <= 5
    ensures -5 <= ReducedActions()[i].correction <= 5
    ensures IndexOf(ReducedActions(), ReducedActions()[i]) == Some(i)
  {
    ReducedActionAt(i / 11, i % 11);
    var s := ReducedActions();
    forall j | 0 <= j < |s| && j != i
      ensures s[j] != s[i]
    {
      ReducedActionAt(j / 11, j % 11);
    }
    IndexOfDistinct(s, i);
  }
}

=== FILE: command.dfy ===
/** The outbound command (`Command.py`): a one-shot command code that is
    cleared by every send, a saturating `heatup` countdown, and the record
    handed to the simulator. The socket and the byte packing are not modelled. */
module Commands {

  /** Command codes the simulator understands. */
  const NormalCode: int := 0
  const FireCode: int := 11
  const ResetCode: int := 13
  const InitialHeatup: int := 100

  /** The mutable part of a `Command` object. */
  datatype Command = Command(code: int, heatup: int)

  /** One command datagram, field by field in wire order. */
  datatype CommandRecord = CommandRecord(
    controllingId: int,
    thrust: real,
    steering: real,
    turretDeclination: real,
    yaw: real,
    turretBearing: real,
    bank: real,
    faction: int,
    timer: int,
    command: int,
    spawnId: int,
    islandType: int,
    x: real, y: real, z: real,
    target: int,
    bit: bool,
    weapon: int)

  /** Result of `send_command`: the record sent and the command afterwards. */
  datatype Sent = Sent(record: CommandRecord, next: Command)

  /** `Command.__init__`. */
  function NewCommand(): (c: Command)
    ensures c.code == NormalCode && c.heatup == InitialHeatup
  {
    Command(NormalCode, InitialHeatup)
  }

  /** `fire()`: request a single shot; nothing else changes. */
  function Fire(c: Command): (c': Command)
    ensures c'.code == FireCode
    ensures c'.heatup == c.heatup
  {
    c.(code := FireCode)
  }

  /** `send_command`: emit the current code with the caller's driving values
      and fixed zero yaw, bank and reserved fields, then clear the code and
      count heatup down towards zero. */
  function Send(c: Command, timer: int, controllingId: int, thrust: real, steering: real,
                declination: real, turretBearing: real): (s: Sent)
    ensures s.record.command == c.code
    ensures s.record.controllingId == controllingId && s.record.timer == timer
    ensures s.record.thrust == thrust && s.record.steering == steering
    ensures s.record.turretDeclination == declination && s.record.turretBearing == turretBearing
    ensures s.record.yaw == 0.0 && s.record.bank == 0.0 && s.record.faction == 1
    ensures s.record.spawnId == 0 && s.record.islandType == 0
    ensures s.record.x == 0.0 && s.record.y == 0.0 && s.record.z == 0.0
    ensures s.record.target == 0 && !s.record.bit && s.record.weapon == 0
    ensures s.next.code == NormalCode
    ensures c.heatup > 0 ==> s.next.heatup == c.heatup - 1
    ensures c.heatup <= 0 ==> s.next.heatup == c.heatup
  {
    var record := CommandRecord(controllingId, thrust, steering, declination, 0.0,
                                turretBearing, 0.0, 1, timer, c.code, 0, 0,
                                0.0, 0.0, 0.0, 0, false, 0);
    var heatup := if c.heatup > 0 then c.heatup - 1 else c.heatup;
    Sent(record, Command(NormalCode, heatup))
  }

  /** A fire request goes out in the next record and in no later one, unless
      fired again. */
  lemma FireSentOnce(c: Command, timer: int, id: int, thrust: real, steering: real,
                     declination: real, bearing: real)
    ensures var first := Send(Fire(c), timer, id, thrust, steering, declination, bearing);
      && first.record.command == FireCode
      && Send(first.next, timer, id, thrust, steering, declination, bearing).record.command == NormalCode
  {
  }

  /** The command state after n sends (driving values do not affect it). */
  function SendTimes(c: Command, n: nat): (c': Command)
    ensures n > 0 ==> c'.code == NormalCode
    ensures n == 0 ==> c' == c
  {
    if n == 0 then c else Send(SendTimes(c, n - 1), 0, 0, 0.0, 0.0, 0.0, 0.0).next
  }

  /** Heatup falls by one per send while positive and then stays at zero. */
  lemma {:induction false} HeatupAfterSends(c: Command, n: nat)
    requires c.heatup >= 0
    ensures SendTimes(c, n).heatup == if n <= c.heatup then c.heatup - n else 0
  {
    if n > 0 {
      HeatupAfterSends(c, n - 1);
    }
  }

  /** A fresh command has cooled down completely after 100 sends or more. */
  lemma HeatupExhausted(n: nat)
    requires n >= 100
    ensures SendTimes(NewCommand(), n).heatup == 0
  {
    HeatupAfterSends(NewCommand(), n);
  }
}

=== FILE: encoding.dfy ===
/** State discretization (`get_state`): every continuous quantity becomes the
    index of the fixed-width bucket that holds it. Two readings in the same
    buckets are the same state to the learner. */
module StateEncoding {
  import opened PyMath
  import opened Telemetry

  const BearingWidth: real := 36.0
  const DistanceWidth: real := 100.0
  const DeclinationWidth: real := 10.0
  const ThrustWidth: real := 3.33
  const SteeringWidth: real := 3.0
  const PositionWidth: real := 100.0
  /** terminator.py adds 1e-9 to the bearing and both terminators to the
      distance before bucketing. */
  const Nudge: real := 0.000000001

  /** `int(x // width)`: the floor quotient is a whole float, so `int()` keeps it. */
  function Bucket(x: real, width: real): (k: int)
    requires width > 0.0
    ensures k as real * width <= x < (k + 1) as real * width
  {
    var k := FloorDiv(x, width);
    TruncWhole(k);
    Trunc(k as real)
  }

  /** The fourteen-component state of terminator.py and terminator_2.py. */
  datatype Key = Key(bearing: int, distance: int, turretBearing: int, declination: int,
                     thrust: int, steering: int, myX: int, myZ: int, myBearing: int,
                     enemyX: int, enemyZ: int, driftX: int, driftZ: int, enemyBearing: int)

  /** The eleven-component state of test_q.py: the fourteen without the drift
      terms and the enemy bearing. */
  datatype ShortKey = ShortKey(bearing: int, distance: int, turretBearing: int, declination: int,
                               thrust: int, steering: int, myX: int, myZ: int, myBearing: int,
                               enemyX: int, enemyZ: int)

  /** The drift term `int(prev - x // 100)`: by operator precedence the previous
      raw coordinate minus the current bucket, not a difference of buckets. */
  function Drift(previous: real, current: real): (r: int)
    ensures var d := previous - Bucket(current, PositionWidth) as real;
      && (d >= 0.0 ==> 0 <= r && r as real <= d < r as real + 1.0)
      && (d < 0.0 ==> r <= 0 && r as real - 1.0 < d <= r as real)
  {
    Trunc(previous - Bucket(current, PositionWidth) as real)
  }

  /** `get_state`, with the bearing and distance nudges as parameters (1e-9 or 0). */
  function Encode(me: Frame, enemy: Frame, bearing: real, distance: real, turretBearing: real,
                  declination: real, thrust: real, steering: real, prevX: real, prevZ: real,
                  bearingNudge: real, distanceNudge: real): (k: Key)
    ensures k.bearing as real * BearingWidth <= bearing + bearingNudge < (k.bearing + 1) as real * BearingWidth
    ensures k.distance as real * DistanceWidth <= distance + distanceNudge < (k.distance + 1) as real * DistanceWidth
    ensures k.turretBearing as real * BearingWidth <= turretBearing < (k.turretBearing + 1) as real * BearingWidth
    ensures k.declination as real * DeclinationWidth <= declination < (k.declination + 1) as real * DeclinationWidth
    ensures k.thrust as real * ThrustWidth <= thrust < (k.thrust + 1) as real * ThrustWidth
    ensures k.steering as real * SteeringWidth <= steering < (k.steering + 1) as real * SteeringWidth
    ensures k.myX as real * PositionWidth <= me.x < (k.myX + 1) as real * PositionWidth
    ensures k.myZ as real * PositionWidth <= me.z < (k.myZ + 1) as real * PositionWidth
    ensures k.myBearing as real * BearingWidth <= me.bearing < (k.myBearing + 1) as real * BearingWidth
    ensures k.enemyX as real * PositionWidth <= enemy.x < (k.enemyX + 1) as real * PositionWidth
    ensures k.enemyZ as real * PositionWidth <= enemy.z < (k.enemyZ + 1) as real * PositionWidth
    ensures k.driftX == Drift(prevX, enemy.x) && k.driftZ == Drift(prevZ, enemy.z)
    ensures k.enemyBearing as real * BearingWidth <= enemy.bearing < (k.enemyBearing + 1) as real * BearingWidth
  {
    Key(Bucket(bearing + bearingNudge, BearingWidth),
        Bucket(distance + distanceNudge, DistanceWidth),
        Bucket(turretBearing, BearingWidth),
        Bucket(declination, DeclinationWidth),
        Bucket(thrust, ThrustWidth),
        Bucket(steering, SteeringWidth),
        Bucket(me.x, PositionWidth),
        Bucket(me.z, PositionWidth),
        Bucket(me.bearing, BearingWidth),
        Bucket(enemy.x, PositionWidth),
        Bucket(enemy.z, PositionWidth),
        Drift(prevX, enemy.x),
        Drift(prevZ, enemy.z),
        Bucket(enemy.bearing, BearingWidth))
  }

  /** test_q.py's `get_state`: no nudges and no drift or enemy-bearing terms. */
  function EncodeShort(me: Frame, enemy: Frame, bearing: real, distance: real, turretBearing: real,
                       declination: real, thrust: real, steering: real): (k: ShortKey)
    ensures var full := Encode(me, enemy, bearing, distance, turretBearing, declination,
                               thrust, steering, 0.0, 0.0, 0.0, 0.0);
      k == ShortKey(full.bearing, full.distance, full.turretBearing, full.declination,
                    full.thrust, full.steering, full.myX, full.myZ, full.myBearing,
                    full.enemyX, full.enemyZ)
  {
    ShortKey(Bucket(bearing, BearingWidth),
             Bucket(distance, DistanceWidth),
             Bucket(turretBearing, BearingWidth),
             Bucket(declination, DeclinationWidth),
             Bucket(thrust, ThrustWidth),
             Bucket(steering, SteeringWidth),
             Bucket(me.x, PositionWidth),
             Bucket(me.z, PositionWidth),
             Bucket(me.bearing, BearingWidth),
             Bucket(enemy.x, PositionWidth),
             Bucket(enemy.z, PositionWidth))
  }

  /** The bucket bounds determine the bucket: every value in [k*w, (k+1)*w)
      lands in bucket k, so readings in the same buckets are indistinguishable. */
  lemma BucketIsFloor(x: real, width: real, k: int)
    requires width > 0.0
    requires k as real * width <= x < (k + 1) as real * width
    ensures Bucket(x, width) == k
  {
    FloorDivUnique(x, width, k);
  }

  /** Every bucketed component is monotone non-decreasing in its input. */
  lemma BucketMonotone(x: real, y: real, width: real)
    requires width > 0.0 && x <= y
    ensures Bucket(x, width) <= Bucket(y, width)
  {
    FloorDivMonotone(x, y, width);
  }

  /** Values inside [lo*w, hi*w) fall in buckets lo .. hi-1. */
  lemma BucketWithin(x: real, width: real, lo: int, hi: int)
    requires width > 0.0
    requires lo as real * width <= x < hi as real * width
    ensures lo <= Bucket(x, width) < hi
  {
    var k := Bucket(x, width);
    BracketOrder(lo as real, (k + 1) as real, width, x, x);
    BracketOrder(k as real, hi as real, width, x, x);
  }

  /** Negative values floor toward minus infinity rather than toward zero. */
  lemma BucketFloorsNegatives()
    ensures Bucket(-0.5, SteeringWidth) == -1
    ensures Trunc(-0.5 / SteeringWidth) == 0
  {
    BucketIsFloor(-0.5, SteeringWidth, -1);
  }

  /** The two thrust levels the heuristics command land in buckets 0 and 3. */
  lemma ThrustBuckets()
    ensures Bucket(3.0, ThrustWidth) == 0
    ensures Bucket(10.0, ThrustWidth) == 3
  {
    BucketIsFloor(3.0, ThrustWidth, 0);
    BucketIsFloor(10.0, ThrustWidth, 3);
  }

  /** Every commanded declination below 10, including the levels 0..5 of the
      reduced action list and the constant 0, is bucket 0. */
  lemma DeclinationBucketZero(declination: real)
    requires 0.0 <= declination < DeclinationWidth
    ensures Bucket(declination, DeclinationWidth) == 0
  {
    BucketIsFloor(declination, DeclinationWidth, 0);
  }

  /** A simulator bearing in [0, 360) is one of the buckets 0..9, and with the
      1e-9 nudge one of 0..10: a bearing within 1e-9 of 360 spills into 10. */
  lemma BearingBuckets(bearing: real)
    requires 0.0 <= bearing < 360.0
    ensures 0 <= Bucket(bearing, BearingWidth) <= 9
    ensures 0 <= Bucket(bearing + Nudge, BearingWidth) <= 10
    ensures bearing + Nudge >= 360.0 ==> Bucket(bearing + Nudge, BearingWidth) == 10
  {
    BucketWithin(bearing, BearingWidth, 0, 10);
    BucketWithin(bearing + Nudge, BearingWidth, 0, 11);
    if bearing + Nudge >= 360.0 {
      BucketIsFloor(bearing + Nudge, BearingWidth, 10);
    }
  }

  /** Approach steering in [-15, 15] is one of the buckets -5..5. */
  lemma ApproachSteeringBuckets(steering: real)
    requires -15.0 <= steering <= 15.0
    ensures -5 <= Bucket(steering, SteeringWidth) <= 5
  {
    BucketWithin(steering, SteeringWidth, -5, 6);
  }

  /** The drift term is not the change of the enemy's bucket: an enemy that
      stands still reads 0 at the origin but 248 at x = 250, so a stationary
      enemy's drift depends on where it stands. */
  lemma DriftIsNotBucketChange()
    ensures Drift(0.0, 0.0) == 0
    ensures Drift(250.0, 250.0) == 248
  {
    BucketIsFloor(0.0, PositionWidth, 0);
    BucketIsFloor(250.0, PositionWidth, 2);
  }

  /** The drift term grows with the previous coordinate and shrinks as the
      current coordinate's bucket grows. */
  lemma DriftMonotone(previous: real, previous': real, current: real, current': real)
    requires previous <= previous' && current' <= current
    ensures Drift(previous, current) <= Drift(previous', current')
  {
    BucketMonotone(current', current, PositionWidth);
    TruncMonotone(previous - Bucket(current, PositionWidth) as real,
                  previous' - Bucket(current', PositionWidth) as real);
  }
}

=== FILE: geometry.dfy ===
/** The steering heuristics shared by every controller variant
    (`lock_enemigo`, `acercar_enemigo`, `circular_enemigo` and the fire gate).
    The bearing to the enemy arrives as the `atan2` angle in degrees; the
    trigonometry itself is not modelled. */
module Geometry {
  import opened PyMath

  /** The simulator's bearing convention rotates the `atan2` angle by 90 degrees. */
  const BearingRotation: real := 90.0
  /** Steering is clipped to this magnitude when approaching. */
  const SteeringLimit: real := 15.0
  const SlowThrust: real := 3.0
  const FullThrust: real := 10.0
  /** Every controller starts its fire gate at this angle. */
  const InitialFireAngle: real := -3.0

  /** What one driving heuristic decides: thrust, steering, and the bearing to
      the enemy it computed on the way. */
  datatype Drive = Drive(thrust: real, steering: real, bearing: real)

  /** Outcome of the fire gate: whether `fire()` is called, and the new
      `previous_fire_angle`. */
  datatype Gate = Gate(fire: bool, previous: real)

  /** `(raw + 360) % 360` followed by `(b + offset) % 360`: the bearing to the
      enemy in the simulator's frame (offset 90, or test.py's random offset). */
  function SimBearing(raw: real, offset: real): (b: real)
    ensures 0.0 <= b < 360.0
  {
    PyMod(PyMod(raw + 360.0, 360.0) + offset, 360.0)
  }

  /** The two-step normalization is a single rotation of the raw angle by the
      offset, taken modulo a full turn. */
  lemma SimBearingIsRotation(raw: real, offset: real)
    ensures SimBearing(raw, offset) == PyMod(raw + offset, 360.0)
  {
    PyModAddLeft(raw + 360.0, offset, 360.0);
    PyModShift(raw + offset, 360.0, 1);
  }

  /** Normalizing the simulator bearing once more changes nothing. */
  lemma SimBearingIdempotent(raw: real, offset: real)
    ensures PyMod(SimBearing(raw, offset), 360.0) == SimBearing(raw, offset)
  {
    PyModIdempotent(PyMod(raw + 360.0, 360.0) + offset, 360.0);
  }

  /** The turret bearing that points at the enemy given the hull bearing:
      `bearing - hull + 180`, never wrapped. */
  function LockBearing(bearing: real, hull: real): (t: real)
    ensures t - 180.0 + hull == bearing
    ensures 0.0 <= bearing < 360.0 && 0.0 <= hull < 360.0 ==> -180.0 < t < 540.0
  {
    bearing - hull + 180.0
  }

  /** The lock bearing leaves [0, 360) for ordinary inputs: no wrap is applied. */
  lemma LockBearingUnwrapped()
    ensures LockBearing(350.0, 0.0) >= 360.0
    ensures LockBearing(0.0, 350.0) < 0.0
  {
  }

  /** Thrust rule shared by both driving heuristics: slow down in sharp turns. */
  function ThrustFor(steering: real): (thrust: real)
    ensures thrust == SlowThrust || thrust == FullThrust
    ensures thrust == SlowThrust <==> Abs(steering) >= SteeringLimit
  {
    if Abs(steering) >= SteeringLimit then SlowThrust else FullThrust
  }

  /** The unclipped approach steering: the bearing offset, turned by half a
      circle towards the hull's frame. */
  function ApproachOffset(bearing: real, hull: real): real
  {
    if bearing > 180.0 then bearing - hull - 180.0 else bearing - hull + 180.0
  }

  /** `acercar_enemigo`: steer towards the enemy with the offset clipped to
      [-15, 15]; thrust 3 exactly when the clip bites. */
  function Approach(bearing: real, hull: real): (d: Drive)
    ensures -SteeringLimit <= d.steering <= SteeringLimit
    ensures d.thrust == SlowThrust <==> d.steering == SteeringLimit || d.steering == -SteeringLimit
    ensures d.thrust == FullThrust <==> -SteeringLimit < d.steering < SteeringLimit
    ensures var off := ApproachOffset(bearing, hull);
      && (-SteeringLimit <= off <= SteeringLimit ==> d.steering == off)
      && (off > SteeringLimit ==> d.steering == SteeringLimit)
      && (off < -SteeringLimit ==> d.steering == -SteeringLimit)
    ensures d.bearing == bearing
  {
    var steering := Clip(ApproachOffset(bearing, hull), -SteeringLimit, SteeringLimit);
    Drive(ThrustFor(steering), steering, bearing)
  }

  /** `circular_enemigo`: head a quarter turn off the enemy bearing, with the
      heading error taken modulo 360 and re-centred into (-180, 180]. */
  function Orbit(bearing: real, hull: real): (d: Drive)
    ensures -180.0 < d.steering <= 180.0
    ensures PyMod(d.steering, 360.0) == PyMod(bearing + BearingRotation - hull, 360.0)
    ensures d.thrust == SlowThrust <==> Abs(d.steering) >= SteeringLimit
    ensures d.thrust == SlowThrust || d.thrust == FullThrust
    ensures d.bearing == bearing
  {
    var circle := PyMod(bearing + BearingRotation, 360.0);
    var raw := PyMod(circle - hull, 360.0);
    PyModAddLeft(bearing + BearingRotation, -hull, 360.0);
    var steering := if raw > 180.0 then raw - 360.0 else raw;
    PyModIdempotent(circle - hull, 360.0);
    PyModShift(raw, 360.0, -1);
    Drive(ThrustFor(steering), steering, bearing)
  }

  /** The fire gate: fire when the aim bearing moved by at least `threshold`
      since the last shot, and remember the bearing only when firing. */
  function FireGate(threshold: real, bearing: real, previous: real): (g: Gate)
    ensures g.fire <==> Abs(bearing - previous) >= threshold
    ensures g.fire ==> g.previous == bearing
    ensures !g.fire ==> g.previous == previous
  {
    if Abs(bearing - previous) >= threshold then Gate(true, bearing) else Gate(false, previous)
  }

  /** Right after a shot, the gate stays shut until the bearing moves again. */
  lemma FireGateSettles(threshold: real, bearing: real, previous: real)
    requires threshold > 0.0
    ensures var g := FireGate(threshold, bearing, previous);
      !FireGate(threshold, bearing, g.previous).fire
  {
  }

  /** From the initial angle of -3, the first call of any gate whose threshold
      is at most 3 fires, since every simulator bearing is non-negative. */
  lemma FirstGateFires(threshold: real, raw: real, offset: real)
    requires threshold <= 3.0
    ensures FireGate(threshold, SimBearing(raw, offset), InitialFireAngle).fire
  {
  }
}

=== FILE: outcomes.dfy ===
/** Optional values and results with an error, used where the controllers
    either carry a value across ticks or would stop with a Python error. */
module Outcomes {

  /** A value that may be absent (Python's `None`, or a local not yet bound). */
  datatype Option<+T> = None | Some(value: T)

  /** A tick either produces its value or stops with an error. */
  datatype Result<+T, +E> = Ok(value: T) | Err(error: E)
}

=== FILE: pymath.dfy ===
/** Python's float primitives used by the controllers, modelled on `real`:
    floor division `//`, the modulo operator `%`, the `int()` conversion,
    `abs` and numpy's `clip`. Float rounding is not modelled. */
module PyMath {

  function Abs(x: real): (r: real)
    ensures r >= 0.0
    ensures r == x || r == -x
  {
    if x < 0.0 then -x else x
  }

  /** Multiplying both sides by a positive factor keeps an order. */
  lemma MulLe(x: real, y: real, w: real)
    requires w > 0.0 && x <= y
    ensures x * w <= y * w
  {
    assert y * w - x * w == (y - x) * w;
  }

  lemma MulLt(x: real, y: real, w: real)
    requires w > 0.0 && x < y
    ensures x * w < y * w
  {
    assert y * w - x * w == (y - x) * w;
  }

  /** Two bucket bounds that bracket an ordered pair of values are ordered:
      from x*w <= a <= b < y*w with w > 0 follows x < y. */
  lemma BracketOrder(x: real, y: real, w: real, a: real, b: real)
    requires w > 0.0
    requires x * w <= a && a <= b && b < y * w
    ensures x < y
  {
    if x >= y {
      MulLe(y, x, w);
    }
  }

  /** Distributing a difference of whole multiples. */
  lemma SubMul(g: int, f: int, m: real)
    ensures (g - f) as real * m == g as real * m - f as real * m
  {
  }

  /** Python's `a // w` for a positive width: the integer k whose bucket
      [k*w, (k+1)*w) holds a. */
  function FloorDiv(a: real, w: real): (k: int)
    requires w > 0.0
    ensures k as real * w <= a < (k + 1) as real * w
  {
    var q := a / w;
    assert q * w == a;
    assert q < q.Floor as real + 1.0;
    MulLe(q.Floor as real, q, w);
    MulLt(q, (q.Floor + 1) as real, w);
    assert a < (q.Floor + 1) as real * w;
    q.Floor
  }

  /** The bucket of `a` is determined by the bucket bounds alone. */
  lemma FloorDivUnique(a: real, w: real, k: int)
    requires w > 0.0
    requires k as real * w <= a < (k + 1) as real * w
    ensures FloorDiv(a, w) == k
  {
    var f := FloorDiv(a, w);
    BracketOrder(f as real, (k + 1) as real, w, a, a);
    BracketOrder(k as real, (f + 1) as real, w, a, a);
  }

  /** Bucketing never decreases when its input grows. */
  lemma FloorDivMonotone(a: real, b: real, w: real)
    requires w > 0.0
    requires a <= b
    ensures FloorDiv(a, w) <= FloorDiv(b, w)
  {
    var fa, fb := FloorDiv(a, w), FloorDiv(b, w);
    BracketOrder(fa as real, (fb + 1) as real, w, a, b);
  }

  /** Python's `a % m` for a positive modulus: the remainder in [0, m) left
      after taking out the whole multiples of m below a. */
  function PyMod(a: real, m: real): (r: real)
    requires m > 0.0
    ensures 0.0 <= r < m
    ensures FloorDiv(a, m) as real * m + r == a
  {
    a - FloorDiv(a, m) as real * m
  }

  /** Any remainder in [0, m) that differs from a by a whole multiple of m is
      the one `%` returns. */
  lemma PyModUnique(a: real, m: real, k: int, r: real)
    requires m > 0.0
    requires 0.0 <= r < m
    requires a == k as real * m + r
    ensures PyMod(a, m) == r
  {
    FloorDivUnique(a, m, k);
  }

  /** Shifting by whole turns does not change the remainder. */
  lemma PyModShift(a: real, m: real, k: int)
    requires m > 0.0
    ensures PyMod(a + k as real * m, m) == PyMod(a, m)
  {
    var r := PyMod(a, m);
    var f := FloorDiv(a, m);
    assert a + k as real * m == (f + k) as real * m + r;
    PyModUnique(a + k as real * m, m, f + k, r);
  }

  /** Re-normalizing an already normalized value changes nothing. */
  lemma PyModIdempotent(a: real, m: real)
    requires m > 0.0
    ensures PyMod(PyMod(a, m), m) == PyMod(a, m)
  {
    PyModUnique(PyMod(a, m), m, 0, PyMod(a, m));
  }

  /** Normalizing a partial sum first gives the same remainder as normalizing
      the whole sum. */
  lemma PyModAddLeft(a: real, b: real, m: real)
    requires m > 0.0
    ensures PyMod(PyMod(a, m) + b, m) == PyMod(a + b, m)
  {
    var f, g := FloorDiv(a, m), FloorDiv(a + b, m);
    var r := PyMod(a + b, m);
    var x := PyMod(a, m) + b;
    SubMul(g, f, m);
    assert x == (g - f) as real * m + r;
    PyModUnique(x, m, g - f, r);
  }

  /** Python's `int(x)` on a float: truncation toward zero. */
  function Trunc(x: real): (r: int)
    ensures x >= 0.0 ==> r >= 0 && r as real <= x < r as real + 1.0
    ensures x < 0.0 ==> r <= 0 && r as real - 1.0 < x <= r as real
  {
    if x >= 0.0 then x.Floor else -((-x).Floor)
  }

  /** `int()` of a whole number is that number. */
  lemma TruncWhole(n: int)
    ensures Trunc(n as real) == n
  {
    if n < 0 {
      assert (-(n as real)).Floor == -n;
    }
  }

  /** `int()` never moves a value past a whole number: it is monotone. */
  lemma TruncMonotone(x: real, y: real)
    requires x <= y
    ensures Trunc(x) <= Trunc(y)
  {
  }

  /** `int(h) < n` and `h < n` agree for every positive whole bound n, so the
      controllers' `int(health) < 50` test is the plain comparison. */
  lemma TruncBelow(x: real, n: int)
    requires n > 0
    ensures Trunc(x) < n <==> x < n as real
  {
  }

  /** numpy's `clip(x, lo, hi)`. */
  function Clip(x: real, lo: real, hi: real): (r: real)
    requires lo <= hi
    ensures lo <= r <= hi
    ensures lo <= x <= hi ==> r == x
    ensures x < lo ==> r == lo
    ensures hi < x ==> r == hi
  {
    if x < lo then lo else if x > hi then hi else x
  }
}

=== FILE: qlearning.dfy ===
/** The tabular Q-learner shared by the learning controllers: a table from
    state keys to one value per action index, zero rows for unseen states,
    epsilon-greedy selection with first-maximum tie-breaking, and the
    one-entry Q-learning update. Randomness arrives as parameters. */
module QLearning {

  /** State key to one value per action index. */
  type QTable<S> = map<S, seq<real>>

  /** The all-zero row that `defaultdict` hands out for an unseen state. */
  function Zeros(n: nat): (row: seq<real>)
    ensures |row| == n
    ensures forall i | 0 <= i < n :: row[i] == 0.0
  {
    seq(n, _ => 0.0)
  }

  /** Every stored row has one value per action. */
  predicate WellFormed<S>(q: QTable<S>, n: nat)
  {
    forall s | s in q :: |q[s]| == n
  }

  /** `q_table[s]`: the stored row, or the zero row; a lookup never fails. */
  function Lookup<S>(q: QTable<S>, s: S, n: nat): (row: seq<real>)
    requires WellFormed(q, n)
    ensures |row| == n
    ensures s !in q ==> row == Zeros(n)
  {
    if s in q then q[s] else Zeros(n)
  }

  /** Index of the first maximal entry: what Python's `max(..., key=...)`
      over the action list and `np.argmax` both return. */
  function ArgMax(row: seq<real>): (k: nat)
    requires |row| > 0
    ensures k < |row|
    ensures forall j | 0 <= j < |row| :: row[j] <= row[k]
    ensures forall j | 0 <= j < k :: row[j] < row[k]
  {
    if |row| == 1 then 0
    else
      var k := ArgMax(row[..|row| - 1]);
      if row[|row| - 1] > row[k] then |row| - 1 else k
  }

  /** The first maximal index is the only index with both properties. */
  lemma ArgMaxUnique(row: seq<real>, k: nat)
    requires k < |row|
    requires forall j | 0 <= j < |row| :: row[j] <= row[k]
    requires forall j | 0 <= j < k :: row[j] < row[k]
    ensures ArgMax(row) == k
  {
  }

  /** The largest value in a row. */
  function MaxValue(row: seq<real>): (v: real)
    requires |row| > 0
    ensures v in row
    ensures forall j | 0 <= j < |row| :: row[j] <= v
  {
    row[ArgMax(row)]
  }

  /** Epsilon-greedy `choose_action`: explore with the caller's random index
      when the uniform draw is below epsilon, otherwise exploit the first
      maximal action of the state's row. */
  function ChooseAction<S>(q: QTable<S>, s: S, n: nat, epsilon: real, draw: real, pick: nat): (a: nat)
    requires WellFormed(q, n)
    requires pick < n
    ensures a < n
    ensures draw < epsilon ==> a == pick
    ensures draw >= epsilon ==>
      && (forall j | 0 <= j < n :: Lookup(q, s, n)[j] <= Lookup(q, s, n)[a])
      && (forall j | 0 <= j < a :: Lookup(q, s, n)[j] < Lookup(q, s, n)[a])
  {
    if draw < epsilon then pick else ArgMax(Lookup(q, s, n))
  }

  /** On an unseen state exploitation picks action 0. */
  lemma ExploitUnseen<S>(q: QTable<S>, s: S, n: nat, epsilon: real, draw: real, pick: nat)
    requires WellFormed(q, n) && pick < n
    requires s !in q && draw >= epsilon
    ensures ChooseAction(q, s, n, epsilon, draw, pick) == 0
  {
    ArgMaxUnique(Lookup(q, s, n), 0);
  }

  /** The learning-rate share of an error: `learning_rate * td_error`. */
  function Fraction(alpha: real, error: real): real
  {
    alpha * error
  }

  /** One learning step: move `prior` a fraction `alpha` of the way to `target`. */
  function Blend(prior: real, target: real, alpha: real): real
  {
    prior + Fraction(alpha, target - prior)
  }

  lemma FractionOfGain(alpha: real, error: real)
    requires 0.0 < alpha < 1.0 && error > 0.0
    ensures 0.0 < alpha * error < error
  {
  }

  lemma FractionOfLoss(alpha: real, error: real)
    requires 0.0 < alpha < 1.0 && error < 0.0
    ensures error < alpha * error < 0.0
  {
  }

  /** A proper fraction of an error keeps its sign and is smaller in size. */
  lemma FractionBounds(alpha: real, error: real)
    requires 0.0 < alpha < 1.0
    ensures error > 0.0 ==> 0.0 < Fraction(alpha, error) < error
    ensures error < 0.0 ==> error < Fraction(alpha, error) < 0.0
    ensures error == 0.0 ==> Fraction(alpha, error) == 0.0
  {
    if error > 0.0 {
      FractionOfGain(alpha, error);
    } else if error < 0.0 {
      FractionOfLoss(alpha, error);
    }
  }

  /** With 0 < alpha < 1 the updated value lies strictly between the prior
      value and the target when they differ, and stays put when they agree. */
  lemma BlendContracts(prior: real, target: real, alpha: real)
    requires 0.0 < alpha < 1.0
    ensures prior < target ==> prior < Blend(prior, target, alpha) < target
    ensures target < prior ==> target < Blend(prior, target, alpha) < prior
    ensures prior == target ==> Blend(prior, target, alpha) == prior
  {
    FractionBounds(alpha, target - prior);
  }

  /** The remaining gap to the target is the complementary fraction of the
      original gap: each step closes a share alpha of it. */
  lemma BlendGap(prior: real, target: real, alpha: real)
    ensures target - Blend(prior, target, alpha) == Fraction(1.0 - alpha, target - prior)
  {
  }

  /** The temporal-difference target `reward + gamma * max Q[next]`. */
  function TdTarget<S>(q: QTable<S>, reward: real, next: S, n: nat, gamma: real): real
    requires WellFormed(q, n) && n > 0
  {
    reward + gamma * MaxValue(Lookup(q, next, n))
  }

  /** `update_q_table`: only entry `a` of the row for `s` changes, and it
      becomes the blend of its prior value with the TD target; every other entry
      of every row keeps its value, and only `s` may become a stored key. */
  function Update<S>(q: QTable<S>, s: S, a: nat, reward: real, next: S, n: nat,
                     alpha: real, gamma: real): (q': QTable<S>)
    requires WellFormed(q, n) && a < n
    ensures WellFormed(q', n)
    ensures q'.Keys == q.Keys + {s}
    ensures Lookup(q', s, n)[a] ==
      Blend(Lookup(q, s, n)[a], reward + gamma * MaxValue(Lookup(q, next, n)), alpha)
    ensures forall i | 0 <= i < n && i != a :: Lookup(q', s, n)[i] == Lookup(q, s, n)[i]
    ensures forall t | t != s && t in q' :: q'[t] == q[t]
  {
    var row := Lookup(q, s, n);
    var target := TdTarget(q, reward, next, n, gamma);
    q[s := row[a := Blend(row[a], target, alpha)]]
  }

  /** Read through `Lookup`, the update leaves every row but the updated
      state's exactly as it was, including default zero rows. */
  lemma UpdateFrame<S>(q: QTable<S>, s: S, a: nat, reward: real, next: S, n: nat,
                       alpha: real, gamma: real, t: S)
    requires WellFormed(q, n) && a < n
    requires t != s
    ensures Lookup(Update(q, s, a, reward, next, n, alpha, gamma), t, n) == Lookup(q, t, n)
  {
  }

  /** The Q-learning contraction: the updated entry moves strictly towards the
      TD target, never past it. */
  lemma UpdateTowardsTarget<S>(q: QTable<S>, s: S, a: nat, reward: real, next: S, n: nat,
                               alpha: real, gamma: real)
    requires WellFormed(q, n) && a < n
    requires 0.0 < alpha < 1.0
    ensures var prior := Lookup(q, s, n)[a];
      var target := TdTarget(q, reward, next, n, gamma);
      var updated := Lookup(Update(q, s, a, reward, next, n, alpha, gamma), s, n)[a];
      && (prior < target ==> prior < updated < target)
      && (target < prior ==> target < updated < prior)
      && (prior == target ==> updated == prior)
  {
    BlendContracts(Lookup(q, s, n)[a], TdTarget(q, reward, next, n, gamma), alpha);
  }
}

=== FILE: rewards.dfy ===
/** The immediate reward of terminator_2.py and test_q.py: on a tick whose
    command code is the fire code, a drop in the enemy's health since the
    previous tick is the reward and anything else earns the penalty; other
    ticks earn 0. */
module ImmediateReward {
  import opened Outcomes

  /** `reward` as the two controllers compute it, with `previous` None before
      the first tick has recorded a health. */
  function Reward(fired: bool, previous: Option<real>, current: real, penalty: real): (r: real)
    ensures !fired ==> r == 0.0
    ensures fired && previous.Some? && current < previous.value ==> r == previous.value - current
    ensures fired && !(previous.Some? && current < previous.value) ==> r == penalty
  {
    if !fired then 0.0
    else if previous.Some? && previous.value - current > 0.0 then previous.value - current
    else penalty
  }

  /** With a negative penalty, a firing tick is rewarded positively exactly
      when the enemy's health is known to have dropped. */
  lemma RewardSign(previous: Option<real>, current: real, penalty: real)
    requires penalty < 0.0
    ensures Reward(true, previous, current, penalty) > 0.0 <==> previous.Some? && current < previous.value
    ensures Reward(true, previous, current, penalty) != 0.0
  {
  }

  /** A shot on the very first tick is penalized, since no previous health
      exists to compare with. */
  lemma FirstShotPenalized(current: real, penalty: real)
    ensures Reward(true, None, current, penalty) == penalty
  {
  }
}

=== FILE: sinq.dfy ===
/** One control tick of sin_q.py, the heuristic controller without learning:
    approach beyond distance 1, circle with a fire gate of threshold 3 below
    distance 0, and aim the turret one degree past the lock bearing. */
module SinQ {
  import opened Outcomes
  import opened PyMath
  import opened Geometry
  import opened Telemetry
  import opened Commands

  const ApproachBeyond: real := 1.0
  const OrbitBelow: real := 0.0
  const GateThreshold: real := 3.0
  /** The extra degree added to the lock bearing. */
  const AimOffset: real := 1.0
  const Declination: real := 0.0

  /** The loop's crash paths, in the order the source reaches them. */
  datatype Fault =
    | UnboundCommand  // command: only tanks 1 and 2 get a Command object
    | UnboundDrive    // thrust, steering: no distance band bound them yet

  /** The controller's state between ticks; `drive` holds the driving values
      of the last tick that bound them (the declination is then 0.0 too). */
  datatype Controller = Controller(previousFireAngle: real, command: Command, drive: Option<Drive>, tank: int)

  datatype Outcome = Outcome(controller: Controller, sent: CommandRecord)

  function Start(tank: int): (c: Controller)
    ensures c.previousFireAngle == InitialFireAngle && c.command == NewCommand() && c.drive.None?
  {
    Controller(InitialFireAngle, NewCommand(), None, tank)
  }

  /** One iteration of the `run` loop on a paired tick. A tank other than 1
      or 2 never bound `command`, so the tick crashes on its first use: in the
      circling branch or at the send, in either case before the driving values
      are read. */
  function Tick(c: Controller, me: Frame, sight: Sighting): (r: Result<Outcome, Fault>)
    ensures r == Err(UnboundCommand) <==> !Participant(c.tank)
    ensures r == Err(UnboundDrive) <==>
      Participant(c.tank) && sight.distance <= ApproachBeyond && sight.distance >= OrbitBelow && c.drive.None?
    ensures r.Ok? ==> r.value.sent.turretDeclination == Declination
    ensures r.Ok? ==> r.value.controller.command.code == NormalCode && r.value.controller.tank == c.tank
    ensures r.Ok? ==>
      && r.value.controller.drive.Some?
      && r.value.sent.thrust == r.value.controller.drive.value.thrust
      && r.value.sent.steering == r.value.controller.drive.value.steering
      && r.value.sent.turretBearing == LockBearing(SimBearing(sight.rawBearing, BearingRotation), me.bearing) + AimOffset
    ensures r.Ok? && sight.distance > ApproachBeyond ==>
      r.value.controller.drive == Some(Approach(SimBearing(sight.rawBearing, BearingRotation), me.bearing))
    ensures r.Ok? && sight.distance < OrbitBelow ==>
      r.value.controller.drive == Some(Orbit(SimBearing(sight.rawBearing, BearingRotation), me.bearing))
    ensures r.Ok? && OrbitBelow <= sight.distance <= ApproachBeyond ==> r.value.controller.drive == c.drive
  {
    var bearing := SimBearing(sight.rawBearing, BearingRotation);
    var turret := LockBearing(bearing, me.bearing) + AimOffset;
    var approach := if sight.distance > ApproachBeyond then Some(Approach(bearing, me.bearing)) else c.drive;
    var gate := if sight.distance < OrbitBelow then FireGate(GateThreshold, bearing, c.previousFireAngle)
                else Gate(false, c.previousFireAngle);
    var drive := if sight.distance < OrbitBelow then Some(Orbit(bearing, me.bearing)) else approach;
    var command := if gate.fire then Fire(c.command) else c.command;
    if !Participant(c.tank) then Err(UnboundCommand)
    else if drive.None? then Err(UnboundDrive)
    else
      var sent := Send(command, me.timer, c.tank, drive.value.thrust, drive.value.steering, Declination, turret);
      Ok(Outcome(Controller(gate.previous, sent.next, drive, c.tank), sent.record))
  }

  /** A distance is a square root, so the circling branch never runs: on a
      valid sighting the controller approaches beyond distance 1, never
      fires, keeps its gate angle, and aims at bearing - hull + 181 without
      wrapping. */
  lemma NeverFires(c: Controller, me: Frame, sight: Sighting)
    requires ValidSighting(sight) && c.command.code == NormalCode
    ensures var r := Tick(c, me, sight);
      var bearing := SimBearing(sight.rawBearing, BearingRotation);
      && (r.Ok? ==> r.value.sent.command == NormalCode)
      && (r.Ok? ==> r.value.controller.previousFireAngle == c.previousFireAngle)
      && (r.Ok? ==> r.value.sent.turretBearing == bearing - me.bearing + 180.0 + AimOffset)
      && (Participant(c.tank) && sight.distance > ApproachBeyond ==>
            r.Ok? && r.value.controller.drive == Some(Approach(bearing, me.bearing)))
  {
  }

  /** Were the circling branch reached, it would fire whenever the bearing
      moved at least 3 degrees since the last shot; an unknown tank crashes
      there on `command` before the gate is consulted. */
  lemma OrbitGate(c: Controller, me: Frame, sight: Sighting)
    requires sight.distance < OrbitBelow && c.command.code == NormalCode
    ensures var r := Tick(c, me, sight);
      var bearing := SimBearing(sight.rawBearing, BearingRotation);
      && (!Participant(c.tank) ==> r == Err(UnboundCommand))
      && (Participant(c.tank) ==>
            && r.Ok?
            && (r.value.sent.command == FireCode <==> Abs(bearing - c.previousFireAngle) >= GateThreshold)
            && r.value.controller.drive == Some(Orbit(bearing, me.bearing)))
  {
  }
}

=== FILE: telemetry.dfy ===
/** The decoded telemetry the controllers consume each tick. Byte layouts and
    the socket are not modelled: a frame is a record of the fields the
    decision logic reads, and the quantities computed with `atan2` and `sqrt`
    arrive as inputs. */
module Telemetry {
  import opened Outcomes

  /** One participant's snapshot for one tick. */
  datatype Frame = Frame(number: int, x: real, z: real, bearing: real,
                         health: real, power: real, timer: int)

  /** The two frames of a tick, resolved to the controlled tank and its enemy. */
  datatype Pair = Pair(me: Frame, enemy: Frame)

  /** What the trigonometry yields: the `atan2` bearing to the enemy in degrees
      and the planar distance between the tanks. */
  datatype Sighting = Sighting(rawBearing: real, distance: real)

  /** `atan2` in degrees lies in [-180, 180] and a square root is never negative. */
  predicate ValidSighting(s: Sighting)
  {
    -180.0 <= s.rawBearing <= 180.0 && s.distance >= 0.0
  }

  /** The participant numbers the simulator sends frames for; the scripts
      without an `else` branch open a command socket only for these. */
  predicate Participant(tank: int)
  {
    tank == 1 || tank == 2
  }

  /** The frame-pairing step of every `run` loop, judged on one pair: the first
      frame must be participant 1 and the second participant 2; tank 1 controls
      the first frame, any other tank the second. The loop's re-reading after a
      rejected frame (a bad first frame alone is dropped, a bad second frame
      drops both) is not modelled: a rejected pair yields `None`. */
  function SelectPair(first: Frame, second: Frame, tank: int): (r: Option<Pair>)
    ensures r.Some? <==> first.number == 1 && second.number == 2
    ensures r.Some? ==> r.value.me.number == (if tank == 1 then 1 else 2)
    ensures r.Some? ==> r.value.enemy.number == (if tank == 1 then 2 else 1)
    ensures r.Some? ==> {r.value.me, r.value.enemy} == {first, second}
  {
    if first.number != 1 || second.number != 2 then None
    else if tank == 1 then Some(Pair(first, second))
    else Some(Pair(second, first))
  }
}

=== FILE: termination.dfy ===
/** The end-of-episode test the learning controllers run after each send: a
    destroyed enemy, an exhausted time budget or a drained battery each set
    the reset code on the outbound command. */
module Termination {
  import opened PyMath
  import opened Commands

  /** An enemy whose health truncates below this counts as destroyed. */
  const DestroyedBelow: int := 50
  /** Below this much power the episode ends. */
  const PowerFloor: real := 10.0

  /** Any of the three end conditions, with the controller's own time limit. */
  predicate Ended(health: real, timer: int, power: real, timeLimit: int)
  {
    Trunc(health) < DestroyedBelow || timer > timeLimit || power < PowerFloor
  }

  /** The three checks in sequence: each that holds sets the reset code, so the
      command is reset exactly when some check holds and untouched otherwise;
      the heatup countdown is never affected. */
  function Terminate(command: Command, health: real, timer: int, power: real, timeLimit: int): (c: Command)
    ensures Ended(health, timer, power, timeLimit) ==> c.code == ResetCode
    ensures !Ended(health, timer, power, timeLimit) ==> c == command
    ensures c.heatup == command.heatup
  {
    var c1 := if Trunc(health) < DestroyedBelow then command.(code := ResetCode) else command;
    var c2 := if timer > timeLimit then c1.(code := ResetCode) else c1;
    if power < PowerFloor then c2.(code := ResetCode) else c2
  }
}

=== FILE: terminator.dfy ===
/** One control tick of terminator.py: steer by distance band, encode the
    state, choose a combined fire/aim action while no shot is in flight,
    count down the delayed rewards and learn from resolved shots, reward a
    destroyed enemy, request a reset on the termination conditions, and send
    one command. Python locals that survive from one loop iteration to the
    next are fields of the controller; reading one that was never bound is a
    `Fault`. */
module Terminator {
  import opened Outcomes
  import opened PyMath
  import opened Geometry
  import opened Telemetry
  import opened StateEncoding
  import opened QLearning
  import opened ActionSpace
  import opened DelayedReward
  import opened Commands
  import opened Termination

  /** Beyond this distance the tank approaches. */
  const ApproachBeyond: real := 300.0
  /** `random_distance`, drawn from the one-element list [100]: within it the tank circles. */
  const OrbitWithin: real := 100.0
  const Epsilon: real := 0.02
  const Alpha: real := 0.1
  const Gamma: real := 0.2
  const DestroyedReward: real := 5000.0
  const TimeLimit: int := 4900

  /** The loop's crash paths: a local read before any iteration bound it. */
  datatype Fault =
    | UnboundDrive        // thrust, steering, bearing: no distance band matched yet
    | UnboundDeclination  // turretdecl: no action chosen yet
    | UnboundRewardItem   // reward_item: the countdown loop never ran

  /** The controller's state between ticks. */
  datatype Controller = Controller(
    q: QTable<Key>,
    tracker: Tracker<Key>,
    prevX: real,
    prevZ: real,
    command: Command,
    drive: Option<Drive>,
    aim: Option<FireAction>,
    lastVisited: Option<Shot<Key>>,
    tank: int)

  /** A completed tick: the next controller and the record sent. */
  datatype Outcome = Outcome(controller: Controller, sent: CommandRecord)

  /** What the aiming step decided this tick. */
  datatype Decision = Decision(offer: Option<Shot<Key>>, aim: Option<FireAction>,
                               turretBearing: real, command: Command)

  /** The action indices stored in the controller fit the 132-entry rows. */
  predicate Typed(c: Controller)
  {
    && WellFormed(c.q, CombinedRowLength)
    && ActionsBelow(c.tracker.queue, CombinedRowLength)
    && (c.lastVisited.Some? ==> c.lastVisited.value.action < CombinedRowLength)
  }

  /** Everything a controller keeps between ticks: typed, single-flight,
      a chosen action whenever a shot is in flight, and a cleared code. */
  ghost predicate Sound(c: Controller)
  {
    && Typed(c)
    && Inv(c.tracker)
    && (c.tracker.waiting ==> c.aim.Some?)
    && c.command.code == NormalCode
  }

  /** `Controller.__init__` and the start of `run`. */
  function Start(tank: int): (c: Controller)
    ensures Sound(c)
    ensures c.q == map[] && !c.tracker.waiting && c.command == NewCommand()
  {
    Controller(map[], Initial(), 0.0, 0.0, NewCommand(), None, None, None, tank)
  }

  /** The distance bands: approach beyond 300, circle within 100, and in
      between keep the previous tick's driving values. */
  function SelectDrive(distance: real, bearing: real, hull: real, stale: Option<Drive>): (d: Option<Drive>)
    ensures distance > ApproachBeyond ==> d == Some(Approach(bearing, hull))
    ensures distance < OrbitWithin ==> d == Some(Orbit(bearing, hull))
    ensures OrbitWithin <= distance <= ApproachBeyond ==> d == stale
  {
    var approach := if distance > ApproachBeyond then Some(Approach(bearing, hull)) else stale;
    if distance < OrbitWithin then Some(Orbit(bearing, hull)) else approach
  }

  /** The aiming step: with the gate open, choose an action, add its bearing
      correction to the lock bearing and, for a fire action, call `fire()`
      and offer the shot; with the gate closed keep the previous action and
      the plain lock bearing. */
  function Decide(c: Controller, state: Key, lock: real, health: real, draw: real, pick: nat): (d: Decision)
    requires Typed(c) && pick < CombinedRowLength
    ensures c.tracker.waiting ==> d == Decision(None, c.aim, lock, c.command)
    ensures !c.tracker.waiting ==> d.aim.Some? && d.turretBearing == lock + d.aim.value.correction
    ensures d.offer.Some? <==> !c.tracker.waiting && d.aim.value.fire == 1
    ensures d.offer.Some? ==> d.offer.value.state == state && d.offer.value.health == health
    ensures d.offer.Some? ==>
      d.offer.value.action < CombinedRowLength && CombinedAction(d.offer.value.action) == d.aim.value
    ensures d.command == if d.offer.Some? then Fire(c.command) else c.command
  {
    if c.tracker.waiting then Decision(None, c.aim, lock, c.command)
    else
      var a := ChooseAction(c.q, state, CombinedRowLength, Epsilon, draw, pick);
      var act := CombinedAction(a);
      if act.fire == 1 then Decision(Some(Shot(state, a, health)), Some(act), lock + act.correction, Fire(c.command))
      else Decision(None, Some(act), lock + act.correction, c.command)
  }

  /** Some resolution in the list concerns state t. */
  predicate Mentions(resolved: seq<Resolution<Key>>, t: Key)
  {
    exists i | 0 <= i < |resolved| :: resolved[i].state == t
  }

  /** A list mentions its head's state and everything its tail mentions. */
  lemma MentionsCons(resolved: seq<Resolution<Key>>)
    requires resolved != []
    ensures Mentions(resolved, resolved[0].state)
    ensures forall t | Mentions(resolved[1..], t) :: Mentions(resolved, t)
  {
    forall t | Mentions(resolved[1..], t)
      ensures Mentions(resolved, t)
    {
      var i :| 0 <= i < |resolved| - 1 && resolved[1..][i].state == t;
      assert resolved[i + 1].state == t;
    }
  }

  /** The Q updates of the shots resolved this tick, in queue order, each
      bootstrapping from the current tick's state. Only resolved states can
      become new keys, and every other row is left alone. */
  function Learn(q: QTable<Key>, resolved: seq<Resolution<Key>>, next: Key): (q': QTable<Key>)
    requires WellFormed(q, CombinedRowLength)
    requires forall i | 0 <= i < |resolved| :: resolved[i].action < CombinedRowLength
    ensures WellFormed(q', CombinedRowLength)
    ensures forall t | t in q' && t !in q :: Mentions(resolved, t)
    ensures forall t | t in q && !Mentions(resolved, t) :: t in q' && q'[t] == q[t]
    decreases |resolved|
  {
    if resolved == [] then q
    else
      var r := resolved[0];
      var q1 := Update(q, r.state, r.action, r.reward, next, CombinedRowLength, Alpha, Gamma);
      MentionsCons(resolved);
      Learn(q1, resolved[1..], next)
  }

  /** Learning from a single resolution is the one-entry update it carries. */
  lemma LearnSingle(q: QTable<Key>, res: Resolution<Key>, next: Key)
    requires WellFormed(q, CombinedRowLength) && res.action < CombinedRowLength
    ensures Learn(q, [res], next) ==
      Update(q, res.state, res.action, res.reward, next, CombinedRowLength, Alpha, Gamma)
  {
    assert [res][1..] == [];
  }

  /** The state `get_state` builds this tick (declination argument 0). */
  function TickState(c: Controller, me: Frame, enemy: Frame, sight: Sighting, drv: Drive): Key
  {
    var lock := LockBearing(SimBearing(sight.rawBearing, BearingRotation), me.bearing);
    Encode(me, enemy, drv.bearing, sight.distance, lock, 0.0, drv.thrust, drv.steering,
           c.prevX, c.prevZ, Nudge, Nudge)
  }

  /** The driving values this tick, if bound. */
  function TickDrive(c: Controller, me: Frame, sight: Sighting): Option<Drive>
  {
    SelectDrive(sight.distance, SimBearing(sight.rawBearing, BearingRotation), me.bearing, c.drive)
  }

  /** One iteration of the `run` loop on a paired tick. */
  function Tick(c: Controller, me: Frame, enemy: Frame, sight: Sighting, draw: real, pick: nat): (r: Result<Outcome, Fault>)
    requires Typed(c) && pick < CombinedRowLength
    ensures TickDrive(c, me, sight).None? <==> r == Err(UnboundDrive)
    ensures r.Ok? ==> Typed(r.value.controller)
    ensures r.Ok? ==> r.value.controller.command.code == NormalCode
    ensures r.Ok? ==> r.value.controller.prevX == enemy.x && r.value.controller.prevZ == enemy.z
    ensures r.Ok? ==> r.value.controller.tank == c.tank && r.value.sent.controllingId == c.tank
    ensures r.Ok? ==> r.value.sent.timer == me.timer
  {
    var bearing := SimBearing(sight.rawBearing, BearingRotation);
    var lock := LockBearing(bearing, me.bearing);
    var drive := TickDrive(c, me, sight);
    if drive.None? then Err(UnboundDrive)
    else
      var drv := drive.value;
      var state := TickState(c, me, enemy, sight, drv);
      var dec := Decide(c, state, lock, enemy.health, draw, pick);
      var step := Step(c.tracker, dec.offer, enemy.health);
      StepActions(c.tracker, dec.offer, enemy.health, CombinedRowLength);
      var q1 := Learn(c.q, step.resolved, state);
      var visited := if step.visited.Some? then step.visited else c.lastVisited;
      if dec.aim.None? then Err(UnboundDeclination)
      else
        var destroyed := Trunc(enemy.health) < DestroyedBelow;
        if destroyed && visited.None? then Err(UnboundRewardItem)
        else
          var q2 := if destroyed
            then Update(q1, visited.value.state, visited.value.action, DestroyedReward, state,
                        CombinedRowLength, Alpha, Gamma)
            else q1;
          var cmd := Terminate(dec.command, enemy.health, me.timer, me.power, TimeLimit);
          var sent := Send(cmd, me.timer, c.tank, drv.thrust, drv.steering,
                           dec.aim.value.declination, dec.turretBearing);
          Ok(Outcome(Controller(q2, step.tracker, enemy.x, enemy.z, sent.next, drive, dec.aim, visited, c.tank),
                     sent.record))
  }

  /** Every completed tick keeps the controller sound: in particular at most
      one shot is ever in flight and the gate is closed exactly while it is. */
  lemma TickSound(c: Controller, me: Frame, enemy: Frame, sight: Sighting, draw: real, pick: nat)
    requires Sound(c) && pick < CombinedRowLength
    ensures var r := Tick(c, me, enemy, sight, draw, pick);
      r.Ok? ==> Sound(r.value.controller)
  {
    var drive := TickDrive(c, me, sight);
    if drive.Some? {
      var lock := LockBearing(SimBearing(sight.rawBearing, BearingRotation), me.bearing);
      var state := TickState(c, me, enemy, sight, drive.value);
      var dec := Decide(c, state, lock, enemy.health, draw, pick);
      StepInv(c.tracker, dec.offer, enemy.health);
    }
  }

  /** A fire code goes out only on a tick that found the gate open, and that
      tick leaves exactly one shot in flight, carrying the enemy's current
      health and 149 ticks still to count. */
  lemma FireOnlyWhenIdle(c: Controller, me: Frame, enemy: Frame, sight: Sighting, draw: real, pick: nat)
    requires Sound(c) && pick < CombinedRowLength
    ensures var r := Tick(c, me, enemy, sight, draw, pick);
      r.Ok? && r.value.sent.command == FireCode ==>
        && !c.tracker.waiting
        && r.value.controller.tracker.waiting
        && |r.value.controller.tracker.queue| == 1
        && r.value.controller.tracker.queue[0].delay == ShotDelay - 1
        && r.value.controller.tracker.queue[0].shot.health == enemy.health
  {
    var drive := TickDrive(c, me, sight);
    if drive.Some? {
      var lock := LockBearing(SimBearing(sight.rawBearing, BearingRotation), me.bearing);
      var state := TickState(c, me, enemy, sight, drive.value);
      var dec := Decide(c, state, lock, enemy.health, draw, pick);
      if dec.offer.Some? {
        FireTick(c.tracker, dec.offer.value, enemy.health);
      }
    }
  }

  /** Each termination condition makes the tick send the reset code; without
      one the code sent is the normal or the fire code. */
  lemma ResetOnLimits(c: Controller, me: Frame, enemy: Frame, sight: Sighting, draw: real, pick: nat)
    requires Sound(c) && pick < CombinedRowLength
    ensures var r := Tick(c, me, enemy, sight, draw, pick);
      var limit := Ended(enemy.health, me.timer, me.power, TimeLimit);
      && (r.Ok? && limit ==> r.value.sent.command == ResetCode)
      && (r.Ok? && !limit ==> r.value.sent.command in {NormalCode, FireCode})
  {
  }

  /** The first tick in the 100..300 band has no driving values to reuse. */
  lemma FirstTickInGap(tank: int, me: Frame, enemy: Frame, sight: Sighting, draw: real, pick: nat)
    requires pick < CombinedRowLength
    requires OrbitWithin <= sight.distance <= ApproachBeyond
    ensures Tick(Start(tank), me, enemy, sight, draw, pick) == Err(UnboundDrive)
  {
  }

  /** Later ticks in the gap reuse the previous tick's driving values, so the
      thrust and steering sent are the stale ones. */
  lemma GapKeepsDrive(c: Controller, me: Frame, enemy: Frame, sight: Sighting, draw: real, pick: nat)
    requires Typed(c) && pick < CombinedRowLength
    requires OrbitWithin <= sight.distance <= ApproachBeyond && c.drive.Some?
    ensures var r := Tick(c, me, enemy, sight, draw, pick);
      r.Ok? ==> r.value.sent.thrust == c.drive.value.thrust && r.value.sent.steering == c.drive.value.steering
  {
  }

  /** What a completed tick sends: beyond 300 the approach drive, below 100
      the circling drive; while a shot is in flight the plain lock bearing and
      the held action's declination, otherwise the lock bearing corrected by
      the action chosen now, and that action's declination. */
  lemma TickSends(c: Controller, me: Frame, enemy: Frame, sight: Sighting, draw: real, pick: nat)
    requires Typed(c) && pick < CombinedRowLength
    ensures var r := Tick(c, me, enemy, sight, draw, pick);
      var lock := LockBearing(SimBearing(sight.rawBearing, BearingRotation), me.bearing);
      && (r.Ok? && sight.distance > ApproachBeyond ==>
            var d := Approach(SimBearing(sight.rawBearing, BearingRotation), me.bearing);
            r.value.sent.thrust == d.thrust && r.value.sent.steering == d.steering)
      && (r.Ok? && sight.distance < OrbitWithin ==>
            var d := Orbit(SimBearing(sight.rawBearing, BearingRotation), me.bearing);
            r.value.sent.thrust == d.thrust && r.value.sent.steering == d.steering)
      && (r.Ok? && c.tracker.waiting ==>
            && c.aim.Some?
            && r.value.sent.turretBearing == lock
            && r.value.sent.turretDeclination == c.aim.value.declination)
      && (r.Ok? && !c.tracker.waiting ==>
            var state := TickState(c, me, enemy, sight, TickDrive(c, me, sight).value);
            var act := CombinedAction(ChooseAction(c.q, state, CombinedRowLength, Epsilon, draw, pick));
            && r.value.sent.turretBearing == lock + act.correction
            && r.value.sent.turretDeclination == act.declination)
  {
  }

  /** On a sound controller the declination is always bound, and the tick
      crashes on `reward_item` exactly when the enemy is destroyed on a tick
      whose countdown loop ran for the first time without anything to count:
      no shot was ever visited, none is in flight, and the chosen action does
      not fire. */
  lemma TickFaults(c: Controller, me: Frame, enemy: Frame, sight: Sighting, draw: real, pick: nat)
    requires Sound(c) && pick < CombinedRowLength
    ensures var r := Tick(c, me, enemy, sight, draw, pick);
      && r != Err(UnboundDeclination)
      && (r == Err(UnboundRewardItem) <==>
            && TickDrive(c, me, sight).Some?
            && Trunc(enemy.health) < DestroyedBelow
            && c.lastVisited.None?
            && c.tracker.queue == []
            && var state := TickState(c, me, enemy, sight, TickDrive(c, me, sight).value);
               CombinedAction(ChooseAction(c.q, state, CombinedRowLength, Epsilon, draw, pick)).fire == 0)
  {
  }

  /** An enemy destroyed before any shot was ever counted down leaves the
      5000 reward without a shot to credit: exploring a non-firing action on
      the first tick reaches the unbound loop variable. */
  lemma DestroyedBeforeAnyShot(tank: int, me: Frame, enemy: Frame, sight: Sighting, draw: real, pick: nat)
    requires sight.distance > ApproachBeyond
    requires Trunc(enemy.health) < DestroyedBelow
    requires draw < Epsilon && pick < CombinedRowLength / 2
    ensures Tick(Start(tank), me, enemy, sight, draw, pick) == Err(UnboundRewardItem)
  {
    var act := CombinedAction(pick);
    assert act.fire == 0;
  }

  /** The tick that counts a shot down to zero learns from it: the Q table
      becomes the one-entry update of the shot's state and action with the
      health-drop reward, bootstrapped from the current state, and the gate
      opens. */
  lemma ResolutionLearns(c: Controller, me: Frame, enemy: Frame, sight: Sighting, draw: real, pick: nat)
    requires Sound(c) && pick < CombinedRowLength
    requires |c.tracker.queue| == 1 && c.tracker.queue[0].delay == 1
    requires Trunc(enemy.health) >= DestroyedBelow
    requires TickDrive(c, me, sight).Some?
    ensures var r := Tick(c, me, enemy, sight, draw, pick);
      var p := c.tracker.queue[0];
      && r.Ok?
      && r.value.controller.q ==
           Update(c.q, p.shot.state, p.shot.action, ShotReward(p.shot.health, enemy.health),
                  TickState(c, me, enemy, sight, TickDrive(c, me, sight).value),
                  CombinedRowLength, Alpha, Gamma)
      && !r.value.controller.tracker.waiting
      && r.value.controller.tracker.queue == []
  {
    var p := c.tracker.queue[0];
    assert c.tracker == Tracker([p], true);
    var drive := TickDrive(c, me, sight);
    var lock := LockBearing(SimBearing(sight.rawBearing, BearingRotation), me.bearing);
    var state := TickState(c, me, enemy, sight, drive.value);
    var dec := Decide(c, state, lock, enemy.health, draw, pick);
    ResolveTick(p, dec.offer, enemy.health);
    var res := Resolution(p.shot.state, p.shot.action, ShotReward(p.shot.health, enemy.health));
    assert Step(c.tracker, dec.offer, enemy.health).resolved == [res];
    LearnSingle(c.q, res, state);
  }

  /** A tick on which no shot resolves and the enemy survives leaves the Q
      table untouched. */
  lemma QuietTick(c: Controller, me: Frame, enemy: Frame, sight: Sighting, draw: real, pick: nat)
    requires Sound(c) && pick < CombinedRowLength
    requires c.tracker.queue == [] || c.tracker.queue[0].delay > 1
    requires Trunc(enemy.health) >= DestroyedBelow
    ensures var r := Tick(c, me, enemy, sight, draw, pick);
      r.Ok? ==> r.value.controller.q == c.q
  {
    var drive := TickDrive(c, me, sight);
    if drive.Some? {
      var lock := LockBearing(SimBearing(sight.rawBearing, BearingRotation), me.bearing);
      var state := TickState(c, me, enemy, sight, drive.value);
      var dec := Decide(c, state, lock, enemy.health, draw, pick);
      if c.tracker.queue == [] {
        if dec.offer.Some? {
          FireTick(c.tracker, dec.offer.value, enemy.health);
        }
      } else {
        WaitTick(c.tracker.queue[0], dec.offer, enemy.health);
        assert c.tracker == Tracker([c.tracker.queue[0]], true);
      }
    }
  }

  /** With a shot still counting down and the enemy destroyed, the 5000
      reward goes to that shot before it has been evaluated; the tick sends
      the reset code. */
  lemma DestroyedCreditsWaitingShot(c: Controller, me: Frame, enemy: Frame, sight: Sighting, draw: real, pick: nat)
    requires Sound(c) && pick < CombinedRowLength
    requires c.tracker.queue != [] && c.tracker.queue[0].delay > 1
    requires Trunc(enemy.health) < DestroyedBelow
    requires TickDrive(c, me, sight).Some?
    ensures var r := Tick(c, me, enemy, sight, draw, pick);
      var p := c.tracker.queue[0];
      var state := TickState(c, me, enemy, sight, TickDrive(c, me, sight).value);
      && r.Ok?
      && r.value.controller.lastVisited == Some(p.shot)
      && r.value.controller.q ==
           Update(c.q, p.shot.state, p.shot.action, DestroyedReward, state, CombinedRowLength, Alpha, Gamma)
      && r.value.sent.command == ResetCode
  {
    var p := c.tracker.queue[0];
    assert c.tracker == Tracker([p], true);
    var drive := TickDrive(c, me, sight);
    var lock := LockBearing(SimBearing(sight.rawBearing, BearingRotation), me.bearing);
    var state := TickState(c, me, enemy, sight, drive.value);
    var dec := Decide(c, state, lock, enemy.health, draw, pick);
    WaitTick(p, dec.offer, enemy.health);
    var step := Step(c.tracker, dec.offer, enemy.health);
    assert step.visited == Some(p.shot);
    assert Learn(c.q, step.resolved, state) == c.q;
  }

  /** On the tick that resolves a shot with the enemy destroyed, the shot is
      updated twice: first with its health-drop reward, then again with the
      5000 reward; the tick sends the reset code. */
  lemma DestroyedCreditsResolvedShot(c: Controller, me: Frame, enemy: Frame, sight: Sighting, draw: real, pick: nat)
    requires Sound(c) && pick < CombinedRowLength
    requires c.tracker.queue != [] && c.tracker.queue[0].delay == 1
    requires Trunc(enemy.health) < DestroyedBelow
    requires TickDrive(c, me, sight).Some?
    ensures var r := Tick(c, me, enemy, sight, draw, pick);
      var p := c.tracker.queue[0];
      var state := TickState(c, me, enemy, sight, TickDrive(c, me, sight).value);
      var learned := Update(c.q, p.shot.state, p.shot.action, ShotReward(p.shot.health, enemy.health), state,
                            CombinedRowLength, Alpha, Gamma);
      && r.Ok?
      && r.value.controller.lastVisited == Some(p.shot)
      && r.value.controller.q ==
           Update(learned, p.shot.state, p.shot.action, DestroyedReward, state, CombinedRowLength, Alpha, Gamma)
      && r.value.sent.command == ResetCode
  {
    var p := c.tracker.queue[0];
    assert c.tracker == Tracker([p], true);
    var drive := TickDrive(c, me, sight);
    var lock := LockBearing(SimBearing(sight.rawBearing, BearingRotation), me.bearing);
    var state := TickState(c, me, enemy, sight, drive.value);
    var dec := Decide(c, state, lock, enemy.health, draw, pick);
    ResolveTick(p, dec.offer, enemy.health);
    var step := Step(c.tracker, dec.offer, enemy.health);
    assert step.visited == Some(p.shot);
    var res := Resolution(p.shot.state, p.shot.action, ShotReward(p.shot.health, enemy.health));
    assert step.resolved == [res];
    LearnSingle(c.q, res, state);
  }

  /** With the gate open and the enemy destroyed, the 5000 reward goes to the
      loop variable left over from the last countdown pass: the shot queued
      this tick if one was, otherwise the shot remembered from an earlier
      tick, which has already been resolved and credited. So while the enemy
      stays destroyed and nothing is fired, every tick credits the same old
      shot again. The tick sends the reset code. */
  lemma DestroyedRecreditsLastShot(c: Controller, me: Frame, enemy: Frame, sight: Sighting, draw: real, pick: nat)
    requires Sound(c) && pick < CombinedRowLength
    requires c.tracker.queue == [] && c.lastVisited.Some?
    requires Trunc(enemy.health) < DestroyedBelow
    requires TickDrive(c, me, sight).Some?
    ensures var r := Tick(c, me, enemy, sight, draw, pick);
      var state := TickState(c, me, enemy, sight, TickDrive(c, me, sight).value);
      && r.Ok?
      && var next := r.value.controller;
      && next.lastVisited.Some?
      && next.q == Update(c.q, next.lastVisited.value.state, next.lastVisited.value.action, DestroyedReward,
                          state, CombinedRowLength, Alpha, Gamma)
      && (next.tracker.queue == [] ==> next.lastVisited == c.lastVisited)
      && (next.tracker.queue != [] ==> next.lastVisited == Some(next.tracker.queue[0].shot))
      && r.value.sent.command == ResetCode
  {
    var drive := TickDrive(c, me, sight);
    var lock := LockBearing(SimBearing(sight.rawBearing, BearingRotation), me.bearing);
    var state := TickState(c, me, enemy, sight, drive.value);
    var dec := Decide(c, state, lock, enemy.health, draw, pick);
    if dec.offer.Some? {
      FireTick(c.tracker, dec.offer.value, enemy.health);
    }
  }
}

=== FILE: terminator2.dfy ===
/** One control tick of terminator_2.py: always approach, with a fire gate
    of threshold 1 on the enemy bearing; choose a declination level and a
    bearing correction from the 66-entry action list; reward the tick
    immediately from the fire code and the enemy's health drop; update the Q
    table towards the state rebuilt with the chosen aim; request a reset on
    the termination conditions; send one command. */
module Terminator2 {
  import opened Outcomes
  import opened PyMath
  import opened Geometry
  import opened Telemetry
  import opened StateEncoding
  import opened QLearning
  import opened ActionSpace
  import opened Commands
  import opened Termination
  import ImmediateReward

  const GateThreshold: real := 1.0
  const Epsilon: real := 0.1
  const Alpha: real := 0.1
  const Gamma: real := 0.95
  const MissPenalty: real := -50.0
  const TimeLimit: int := 4000

  /** The controller's state between ticks. */
  datatype Controller = Controller(q: QTable<Key>, previousFireAngle: real, previousHealth: Option<real>,
                                   prevX: real, prevZ: real, command: Command, tank: int)

  /** A completed tick: the next controller and the record sent. */
  datatype Outcome = Outcome(controller: Controller, sent: CommandRecord)

  /** What a tick perceives before choosing: the approach drive, the fire
      gate, the lock bearing and the state key. */
  datatype Percept = Percept(drive: Drive, gate: Gate, lock: real, state: Key)

  /** `Controller.__init__` and the start of `run`. */
  function Start(tank: int): (c: Controller)
    ensures WellFormed(c.q, ReducedRowLength) && c.command.code == NormalCode
    ensures c.previousFireAngle == InitialFireAngle && c.previousHealth.None?
  {
    Controller(map[], InitialFireAngle, None, 0.0, 0.0, NewCommand(), tank)
  }

  /** Steering, gate, lock bearing and state for this tick (declination 0,
      no bearing nudge). */
  function Perceive(c: Controller, me: Frame, enemy: Frame, sight: Sighting): (p: Percept)
    ensures p.drive.bearing == SimBearing(sight.rawBearing, BearingRotation)
    ensures p.drive == Approach(p.drive.bearing, me.bearing)
    ensures 0.0 <= p.drive.bearing < 360.0
    ensures p.gate == FireGate(GateThreshold, p.drive.bearing, c.previousFireAngle)
    ensures p.lock - 180.0 + me.bearing == p.drive.bearing
    ensures p.state == Encode(me, enemy, p.drive.bearing, sight.distance, p.lock, 0.0, p.drive.thrust,
                              p.drive.steering, c.prevX, c.prevZ, 0.0, Nudge)
    ensures p.state.declination == 0 && p.state.distance as real * DistanceWidth <= sight.distance + Nudge
  {
    var bearing := SimBearing(sight.rawBearing, BearingRotation);
    var lock := LockBearing(bearing, me.bearing);
    var drive := Approach(bearing, me.bearing);
    var gate := FireGate(GateThreshold, bearing, c.previousFireAngle);
    DeclinationBucketZero(0.0);
    var state := Encode(me, enemy, drive.bearing, sight.distance, lock, 0.0, drive.thrust, drive.steering,
                        c.prevX, c.prevZ, 0.0, Nudge);
    Percept(drive, gate, lock, state)
  }

  /** The state rebuilt after the choice: same inputs, but the corrected
      turret bearing and the chosen declination. */
  function NextState(c: Controller, me: Frame, enemy: Frame, sight: Sighting, p: Percept, act: AimAction): Key
  {
    Encode(me, enemy, p.drive.bearing, sight.distance, p.lock + act.correction as real,
           act.declination as real, p.drive.thrust, p.drive.steering, c.prevX, c.prevZ, 0.0, Nudge)
  }

  /** The action index chosen this tick. */
  function Choose(c: Controller, p: Percept, draw: real, pick: nat): (a: nat)
    requires WellFormed(c.q, ReducedRowLength) && pick < ReducedRowLength
    ensures a < ReducedRowLength
  {
    ChooseAction(c.q, p.state, ReducedRowLength, Epsilon, draw, pick)
  }

  /** `acciones[a]`. */
  function Action(a: nat): (act: AimAction)
    requires a < ReducedRowLength
    ensures act == AimAction(a / 11, a % 11 - 5)
    ensures 0 <= act.declination <= 5 && -5 <= act.correction <= 5
  {
    ReducedActionRange(a);
    ReducedActions()[a]
  }

  /** The reward of this tick: the gate's fire code is still set when the
      reward is computed. */
  function TickReward(c: Controller, enemy: Frame, p: Percept): (r: real)
    requires c.command.code == NormalCode
    ensures r == 0.0 <==> !p.gate.fire
    ensures r > 0.0 ==> p.gate.fire && c.previousHealth.Some? && enemy.health < c.previousHealth.value
  {
    ImmediateReward.RewardSign(c.previousHealth, enemy.health, MissPenalty);
    var command := if p.gate.fire then Fire(c.command) else c.command;
    ImmediateReward.Reward(command.code == FireCode, c.previousHealth, enemy.health, MissPenalty)
  }

  /** One iteration of the `run` loop on a paired tick. */
  function Tick(c: Controller, me: Frame, enemy: Frame, sight: Sighting, draw: real, pick: nat): (o: Outcome)
    requires WellFormed(c.q, ReducedRowLength) && pick < ReducedRowLength
    requires c.command.code == NormalCode
    ensures WellFormed(o.controller.q, ReducedRowLength)
    ensures o.controller.command.code == NormalCode
    ensures o.controller.previousHealth == Some(enemy.health)
    ensures o.controller.prevX == enemy.x && o.controller.prevZ == enemy.z
    ensures o.controller.tank == c.tank && o.sent.controllingId == c.tank && o.sent.timer == me.timer
    ensures 0.0 <= o.sent.turretDeclination <= 5.0
    ensures var d := Approach(SimBearing(sight.rawBearing, BearingRotation), me.bearing);
      o.sent.thrust == d.thrust && o.sent.steering == d.steering
    ensures var a := Choose(c, Perceive(c, me, enemy, sight), draw, pick);
      && o.sent.turretDeclination == (a / 11) as real
      && o.sent.turretBearing == LockBearing(SimBearing(sight.rawBearing, BearingRotation), me.bearing) + (a % 11 - 5) as real
  {
    var p := Perceive(c, me, enemy, sight);
    var command := if p.gate.fire then Fire(c.command) else c.command;
    var a := Choose(c, p, draw, pick);
    var act := Action(a);
    var turret := p.lock + act.correction as real;
    var reward := TickReward(c, enemy, p);
    var next := NextState(c, me, enemy, sight, p, act);
    var q := Update(c.q, p.state, a, reward, next, ReducedRowLength, Alpha, Gamma);
    var cmd := Terminate(command, enemy.health, me.timer, me.power, TimeLimit);
    var sent := Send(cmd, me.timer, c.tank, p.drive.thrust, p.drive.steering, act.declination as real, turret);
    Outcome(Controller(q, p.gate.previous, Some(enemy.health), enemy.x, enemy.z, sent.next, c.tank),
            sent.record)
  }

  /** The rebuilt state differs from the tick's state at most in the turret
      bearing bucket: every declination level 0..5 falls in bucket 0, the
      bucket of the 0 used for the tick's state. */
  lemma NextStateOnlyTurret(c: Controller, me: Frame, enemy: Frame, sight: Sighting, a: nat)
    requires a < ReducedRowLength
    ensures var p := Perceive(c, me, enemy, sight);
      var act := Action(a);
      NextState(c, me, enemy, sight, p, act) ==
        p.state.(turretBearing := Bucket(p.lock + act.correction as real, BearingWidth))
  {
    var act := Action(a);
    DeclinationBucketZero(act.declination as real);
  }

  /** The code sent: reset on a termination condition, otherwise the fire
      code exactly when the gate fired; the gate's angle is remembered only
      on firing. */
  lemma TickCommand(c: Controller, me: Frame, enemy: Frame, sight: Sighting, draw: real, pick: nat)
    requires WellFormed(c.q, ReducedRowLength) && pick < ReducedRowLength
    requires c.command.code == NormalCode
    ensures var o := Tick(c, me, enemy, sight, draw, pick);
      var p := Perceive(c, me, enemy, sight);
      var limit := Ended(enemy.health, me.timer, me.power, TimeLimit);
      && (limit ==> o.sent.command == ResetCode)
      && (!limit ==> (o.sent.command == FireCode <==> p.gate.fire))
      && (!limit ==> (o.sent.command == NormalCode <==> !p.gate.fire))
      && (p.gate.fire <==> Abs(p.drive.bearing - c.previousFireAngle) >= GateThreshold)
      && (p.gate.fire ==> o.controller.previousFireAngle == p.drive.bearing)
      && (!p.gate.fire ==> o.controller.previousFireAngle == c.previousFireAngle)
  {
  }

  /** The reward is 0 on a tick whose gate stays shut; on a firing tick it
      is the enemy's health drop when positive and -50 otherwise. */
  lemma TickRewardRule(c: Controller, me: Frame, enemy: Frame, sight: Sighting)
    requires c.command.code == NormalCode
    ensures var p := Perceive(c, me, enemy, sight);
      var r := TickReward(c, enemy, p);
      && (!p.gate.fire ==> r == 0.0)
      && (p.gate.fire ==> (r > 0.0 <==> c.previousHealth.Some? && enemy.health < c.previousHealth.value))
      && (p.gate.fire && c.previousHealth.Some? && enemy.health < c.previousHealth.value ==>
            r == c.previousHealth.value - enemy.health)
      && (p.gate.fire && !(c.previousHealth.Some? && enemy.health < c.previousHealth.value) ==>
            r == MissPenalty)
  {
    ImmediateReward.RewardSign(c.previousHealth, enemy.health, MissPenalty);
  }

  /** Each tick updates exactly one entry, the chosen action of the tick's
      state, by the learning rule towards the immediate reward plus 0.95 of
      the rebuilt state's best value; every other entry keeps its value. */
  lemma TickLearns(c: Controller, me: Frame, enemy: Frame, sight: Sighting, draw: real, pick: nat)
    requires WellFormed(c.q, ReducedRowLength) && pick < ReducedRowLength
    requires c.command.code == NormalCode
    ensures var o := Tick(c, me, enemy, sight, draw, pick);
      var p := Perceive(c, me, enemy, sight);
      var a := Choose(c, p, draw, pick);
      var next := NextState(c, me, enemy, sight, p, Action(a));
      var target := TickReward(c, enemy, p) + Gamma * MaxValue(Lookup(c.q, next, ReducedRowLength));
      && Lookup(o.controller.q, p.state, ReducedRowLength)[a] ==
           Blend(Lookup(c.q, p.state, ReducedRowLength)[a], target, Alpha)
      && (forall i | 0 <= i < ReducedRowLength && i != a ::
            Lookup(o.controller.q, p.state, ReducedRowLength)[i] == Lookup(c.q, p.state, ReducedRowLength)[i])
      && (forall t | t != p.state :: Lookup(o.controller.q, t, ReducedRowLength) == Lookup(c.q, t, ReducedRowLength))
  {
    var o := Tick(c, me, enemy, sight, draw, pick);
    var p := Perceive(c, me, enemy, sight);
    var a := Choose(c, p, draw, pick);
    var next := NextState(c, me, enemy, sight, p, Action(a));
    forall t | t != p.state
      ensures Lookup(o.controller.q, t, ReducedRowLength) == Lookup(c.q, t, ReducedRowLength)
    {
      UpdateFrame(c.q, p.state, a, TickReward(c, enemy, p), next, ReducedRowLength, Alpha, Gamma, t);
    }
  }

  /** The first tick always fires, since every bearing is at least 1 away
      from the initial -3, and its shot is penalized: no previous health is
      known yet. */
  lemma FirstTickPenalized(tank: int, me: Frame, enemy: Frame, sight: Sighting)
    ensures var c := Start(tank);
      var p := Perceive(c, me, enemy, sight);
      p.gate.fire && TickReward(c, enemy, p) == MissPenalty
  {
    FirstGateFires(GateThreshold, sight.rawBearing, BearingRotation);
  }

  /** The commanded turret bearing is the lock bearing moved by the chosen
      correction, at most 5 degrees either way. */
  lemma AimWithinCorrection(c: Controller, me: Frame, enemy: Frame, sight: Sighting, draw: real, pick: nat)
    requires WellFormed(c.q, ReducedRowLength) && pick < ReducedRowLength
    requires c.command.code == NormalCode
    ensures var o := Tick(c, me, enemy, sight, draw, pick);
      var p := Perceive(c, me, enemy, sight);
      -5.0 <= o.sent.turretBearing - p.lock <= 5.0
  {
  }
}

=== FILE: testdriver.dfy ===
/** One control tick of test.py, the data-collection driver: approach the
    enemy along a bearing rotated by a random offset drawn once per episode,
    aim the turret at the lock bearing, and never fire. */
module TestDriver {
  import opened Outcomes
  import opened PyMath
  import opened Geometry
  import opened Telemetry
  import opened Commands

  const ApproachBeyond: real := 0.0
  const Declination: real := 0.0

  /** The loop's crash paths, in the order the source reaches them. */
  datatype Fault =
    | UnboundCommand  // command: only tanks 1 and 2 get a Command object
    | UnboundDrive    // thrust, steering: the distance test never passed yet

  /** The controller's state: `offset` is `std`, drawn from [0, 360) once
      before the loop. */
  datatype Controller = Controller(offset: real, command: Command, drive: Option<Drive>, tank: int)

  datatype Outcome = Outcome(controller: Controller, sent: CommandRecord)

  function Start(tank: int, offset: real): (c: Controller)
    requires 0.0 <= offset < 360.0
    ensures c.command == NewCommand() && c.drive.None? && c.offset == offset
  {
    Controller(offset, NewCommand(), None, tank)
  }

  /** One iteration of the `run` loop on a paired tick: the lock bearing
      uses the usual 90-degree rotation, the approach the random offset. A
      tank other than 1 or 2 never bound `command` and crashes at the send,
      whose receiver is looked up before its arguments. */
  function Tick(c: Controller, me: Frame, sight: Sighting): (r: Result<Outcome, Fault>)
    ensures r == Err(UnboundCommand) <==> !Participant(c.tank)
    ensures r == Err(UnboundDrive) <==> Participant(c.tank) && sight.distance <= ApproachBeyond && c.drive.None?
    ensures r.Ok? ==> r.value.sent.command == c.command.code
    ensures r.Ok? ==> r.value.sent.turretDeclination == Declination
    ensures r.Ok? ==> r.value.controller.command.code == NormalCode && r.value.controller.offset == c.offset
    ensures r.Ok? ==>
      && r.value.controller.drive.Some?
      && r.value.sent.thrust == r.value.controller.drive.value.thrust
      && r.value.sent.steering == r.value.controller.drive.value.steering
      && r.value.sent.turretBearing == LockBearing(SimBearing(sight.rawBearing, BearingRotation), me.bearing)
    ensures r.Ok? && sight.distance > ApproachBeyond ==>
      r.value.controller.drive == Some(Approach(SimBearing(sight.rawBearing, c.offset), me.bearing))
    ensures r.Ok? && sight.distance <= ApproachBeyond ==> r.value.controller.drive == c.drive
  {
    var turret := LockBearing(SimBearing(sight.rawBearing, BearingRotation), me.bearing);
    var drive := if sight.distance > ApproachBeyond
                 then Some(Approach(SimBearing(sight.rawBearing, c.offset), me.bearing))
                 else c.drive;
    if !Participant(c.tank) then Err(UnboundCommand)
    else if drive.None? then Err(UnboundDrive)
    else
      var sent := Send(c.command, me.timer, c.tank, drive.value.thrust, drive.value.steering, Declination, turret);
      Ok(Outcome(Controller(c.offset, sent.next, drive, c.tank), sent.record))
  }

  /** Every record this driver sends carries the normal code: it never fires. */
  lemma NeverFires(c: Controller, me: Frame, sight: Sighting)
    requires c.command.code == NormalCode
    ensures var r := Tick(c, me, sight);
      r.Ok? ==> r.value.sent.command == NormalCode && r.value.controller.command.code == NormalCode
  {
  }

  /** Approaching steers by the enemy bearing rotated by the episode's
      offset, a single rotation modulo 360, with the clipped steering and the
      thrust rule of `Approach`; the turret bearing is the unwrapped lock.
      An unknown tank crashes on `command` instead. */
  lemma ApproachWithOffset(c: Controller, me: Frame, sight: Sighting)
    requires sight.distance > ApproachBeyond
    ensures var r := Tick(c, me, sight);
      var b := PyMod(sight.rawBearing + c.offset, 360.0);
      && 0.0 <= b < 360.0
      && (!Participant(c.tank) ==> r == Err(UnboundCommand))
      && (Participant(c.tank) ==>
            && r.Ok?
            && r.value.controller.drive == Some(Approach(b, me.bearing))
            && -SteeringLimit <= r.value.sent.steering <= SteeringLimit
            && (r.value.sent.thrust == SlowThrust <==> Abs(r.value.sent.steering) >= SteeringLimit)
            && r.value.sent.turretBearing == SimBearing(sight.rawBearing, BearingRotation) - me.bearing + 180.0)
  {
    SimBearingIsRotation(sight.rawBearing, c.offset);
  }
}

=== FILE: testq.dfy ===
/** One control tick of test_q.py: approach beyond 300, circle within 500
    (circling wins where both hold) with a fire gate of threshold 0.1; learn
    a two-valued declination choice from the immediate reward, with the
    state it was taken in as its own successor. */
module TestQ {
  import opened Outcomes
  import opened Geometry
  import opened Telemetry
  import opened StateEncoding
  import opened QLearning
  import opened ActionSpace
  import opened Commands
  import ImmediateReward

  const ApproachBeyond: real := 300.0
  const OrbitWithin: real := 500.0
  const GateThreshold: real := 0.1
  const Epsilon: real := 0.1
  const Alpha: real := 0.1
  const Gamma: real := 0.95
  const MissPenalty: real := -10.0

  /** The controller's state between ticks. */
  datatype Controller = Controller(q: QTable<ShortKey>, previousFireAngle: real,
                                   previousHealth: Option<real>, command: Command, tank: int)

  /** A completed tick: the next controller and the record sent. */
  datatype Outcome = Outcome(controller: Controller, sent: CommandRecord)

  /** What a tick perceives before choosing: the drive, the fire gate (shut
      when approaching), the lock bearing and the state key. */
  datatype Percept = Percept(drive: Drive, gate: Gate, lock: real, state: ShortKey)

  function Start(tank: int): (c: Controller)
    ensures WellFormed(c.q, BinaryRowLength) && c.command.code == NormalCode
    ensures c.previousFireAngle == InitialFireAngle && c.previousHealth.None?
  {
    Controller(map[], InitialFireAngle, None, NewCommand(), tank)
  }

  /** The two distance tests run one after the other, so a distance below 500
      circles (even above 300) and any other distance, being above 300,
      approaches; only circling consults the gate. */
  function Perceive(c: Controller, me: Frame, enemy: Frame, sight: Sighting): (p: Percept)
    ensures sight.distance < OrbitWithin ==>
      && p.drive == Orbit(p.drive.bearing, me.bearing)
      && p.gate == FireGate(GateThreshold, p.drive.bearing, c.previousFireAngle)
    ensures sight.distance >= OrbitWithin ==>
      && sight.distance > ApproachBeyond
      && p.drive == Approach(p.drive.bearing, me.bearing)
      && p.gate == Gate(false, c.previousFireAngle)
    ensures p.drive.bearing == SimBearing(sight.rawBearing, BearingRotation)
    ensures 0.0 <= p.drive.bearing < 360.0
    ensures p.lock - 180.0 + me.bearing == p.drive.bearing
    ensures p.state == EncodeShort(me, enemy, p.drive.bearing, sight.distance, p.lock, 0.0, p.drive.thrust,
                                   p.drive.steering)
    ensures p.state.declination == 0
  {
    var bearing := SimBearing(sight.rawBearing, BearingRotation);
    var lock := LockBearing(bearing, me.bearing);
    var drive := if sight.distance < OrbitWithin then Orbit(bearing, me.bearing) else Approach(bearing, me.bearing);
    var gate := if sight.distance < OrbitWithin then FireGate(GateThreshold, bearing, c.previousFireAngle)
                else Gate(false, c.previousFireAngle);
    DeclinationBucketZero(0.0);
    var state := EncodeShort(me, enemy, drive.bearing, sight.distance, lock, 0.0, drive.thrust, drive.steering);
    Percept(drive, gate, lock, state)
  }

  /** `choose_action`: a random 0 or 1 below epsilon, else `np.argmax`. */
  function Choose(c: Controller, p: Percept, draw: real, pick: nat): (a: nat)
    requires WellFormed(c.q, BinaryRowLength) && pick < BinaryRowLength
    ensures a < BinaryRowLength
  {
    ChooseAction(c.q, p.state, BinaryRowLength, Epsilon, draw, pick)
  }

  /** The reward of this tick, with the gate's fire code still set. */
  function TickReward(c: Controller, enemy: Frame, p: Percept): (r: real)
    ensures p.gate.fire ==> r != 0.0
    ensures c.command.code == NormalCode && !p.gate.fire ==> r == 0.0
    ensures r > 0.0 ==> c.previousHealth.Some? && enemy.health < c.previousHealth.value
  {
    ImmediateReward.RewardSign(c.previousHealth, enemy.health, MissPenalty);
    var command := if p.gate.fire then Fire(c.command) else c.command;
    ImmediateReward.Reward(command.code == FireCode, c.previousHealth, enemy.health, MissPenalty)
  }

  /** One iteration of the `run` loop on a paired tick. */
  function Tick(c: Controller, me: Frame, enemy: Frame, sight: Sighting, draw: real, pick: nat): (o: Outcome)
    requires WellFormed(c.q, BinaryRowLength) && pick < BinaryRowLength
    ensures WellFormed(o.controller.q, BinaryRowLength)
    ensures o.controller.command.code == NormalCode
    ensures o.controller.previousHealth == Some(enemy.health)
    ensures o.sent.turretDeclination == 0.0 || o.sent.turretDeclination == 1.0
    ensures o.controller.tank == c.tank && o.sent.controllingId == c.tank && o.sent.timer == me.timer
    ensures var p := Perceive(c, me, enemy, sight);
      && o.sent.thrust == p.drive.thrust && o.sent.steering == p.drive.steering
      && o.sent.turretDeclination == Choose(c, p, draw, pick) as real
      && o.sent.turretBearing == p.lock
  {
    var p := Perceive(c, me, enemy, sight);
    var command := if p.gate.fire then Fire(c.command) else c.command;
    var a := Choose(c, p, draw, pick);
    var reward := TickReward(c, enemy, p);
    var q := Update(c.q, p.state, a, reward, p.state, BinaryRowLength, Alpha, Gamma);
    var sent := Send(command, me.timer, c.tank, p.drive.thrust, p.drive.steering, a as real, p.lock);
    Outcome(Controller(q, p.gate.previous, Some(enemy.health), sent.next, c.tank), sent.record)
  }

  /** Exploiting picks action 1 only when its value is strictly larger:
      equal values go to action 0, the first maximum. */
  lemma ExploitBinary(c: Controller, p: Percept, draw: real, pick: nat)
    requires WellFormed(c.q, BinaryRowLength) && pick < BinaryRowLength
    requires draw >= Epsilon
    ensures var row := Lookup(c.q, p.state, BinaryRowLength);
      Choose(c, p, draw, pick) == 1 <==> row[1] > row[0]
  {
    var row := Lookup(c.q, p.state, BinaryRowLength);
    if row[1] > row[0] {
      ArgMaxUnique(row, 1);
    } else {
      ArgMaxUnique(row, 0);
    }
  }

  /** Every update is a self-transition: the entry moves towards the reward
      plus 0.95 of the best value of the same state's row, and nothing else
      in the table changes. */
  lemma TickSelfTransition(c: Controller, me: Frame, enemy: Frame, sight: Sighting, draw: real, pick: nat)
    requires WellFormed(c.q, BinaryRowLength) && pick < BinaryRowLength
    ensures var o := Tick(c, me, enemy, sight, draw, pick);
      var p := Perceive(c, me, enemy, sight);
      var a := Choose(c, p, draw, pick);
      var row := Lookup(c.q, p.state, BinaryRowLength);
      && Lookup(o.controller.q, p.state, BinaryRowLength)[a] ==
           Blend(row[a], TickReward(c, enemy, p) + Gamma * MaxValue(row), Alpha)
      && Lookup(o.controller.q, p.state, BinaryRowLength)[1 - a] == row[1 - a]
      && (forall t | t != p.state :: Lookup(o.controller.q, t, BinaryRowLength) == Lookup(c.q, t, BinaryRowLength))
  {
    var o := Tick(c, me, enemy, sight, draw, pick);
    var p := Perceive(c, me, enemy, sight);
    var a := Choose(c, p, draw, pick);
    forall t | t != p.state
      ensures Lookup(o.controller.q, t, BinaryRowLength) == Lookup(c.q, t, BinaryRowLength)
    {
      UpdateFrame(c.q, p.state, a, TickReward(c, enemy, p), p.state, BinaryRowLength, Alpha, Gamma, t);
    }
  }

  /** The reward and the code sent: with the command cleared by the previous
      send, the fire code goes out exactly when the circling gate fires; the
      reward is 0 otherwise, and on a firing tick the health drop when
      positive or -10. */
  lemma TickRewardRule(c: Controller, me: Frame, enemy: Frame, sight: Sighting, draw: real, pick: nat)
    requires WellFormed(c.q, BinaryRowLength) && pick < BinaryRowLength
    requires c.command.code == NormalCode
    ensures var o := Tick(c, me, enemy, sight, draw, pick);
      var p := Perceive(c, me, enemy, sight);
      var r := TickReward(c, enemy, p);
      var dropped := c.previousHealth.Some? && enemy.health < c.previousHealth.value;
      && (o.sent.command == FireCode <==> p.gate.fire)
      && (p.gate.fire ==> sight.distance < OrbitWithin)
      && (!p.gate.fire ==> r == 0.0)
      && (p.gate.fire && dropped ==> r == c.previousHealth.value - enemy.health)
      && (p.gate.fire && !dropped ==> r == MissPenalty)
  {
  }
}

=== FILE: tracker.dfy ===
/** terminator.py's delayed-reward tracker: a fire decision is queued with a
    countdown of 150 ticks and the enemy's health at fire time, every tick
    decrements each queued shot, and a shot whose countdown reaches zero is
    resolved into a reward and removed. A boolean gate keeps at most one shot
    in flight. The state and action types are left generic. */
module DelayedReward {
  import opened Outcomes

  /** Ticks between a shot and its evaluation. */
  const ShotDelay: int := 150
  /** A hit is rewarded with the health it removed, times this factor. */
  const HitScale: real := 20.0
  /** Reward for a shot that removed no health. */
  const MissPenalty: real := -50.0

  /** A fire decision as it is offered to the tracker: the state it was taken
      in, its action index and the enemy's health at that tick. */
  datatype Shot<S> = Shot(state: S, action: nat, health: real)

  /** A queued shot with its remaining countdown. */
  datatype PendingShot<S> = PendingShot(shot: Shot<S>, delay: int)

  /** A resolved shot: the experience handed to the Q update. */
  datatype Resolution<S> = Resolution(state: S, action: nat, reward: real)

  /** The queue of shots in flight and the `waiting_for_result` gate. */
  datatype Tracker<S> = Tracker(queue: seq<PendingShot<S>>, waiting: bool)

  /** The result of one countdown pass over the queue. */
  datatype Countdown<S> = Countdown(kept: seq<PendingShot<S>>, resolved: seq<Resolution<S>>)

  /** What one tick of the tracker yields: the new tracker, the shots resolved
      this tick in queue order, and the last queue entry the countdown loop
      visited (the loop variable that stays bound after the loop). */
  datatype TickResult<S> = TickResult(tracker: Tracker<S>, resolved: seq<Resolution<S>>,
                                      visited: Option<Shot<S>>)

  /** The empty tracker of a new controller. */
  function Initial<S>(): (tr: Tracker<S>)
    ensures tr.queue == [] && !tr.waiting
  {
    Tracker([], false)
  }

  /** The reward rule: a positive health drop since the shot earns twenty
      times the drop, anything else the miss penalty. */
  function ShotReward(healthAtFire: real, current: real): (r: real)
    ensures r > 0.0 <==> current < healthAtFire
    ensures current < healthAtFire ==> r == (healthAtFire - current) * HitScale
    ensures current >= healthAtFire ==> r == MissPenalty
  {
    if healthAtFire - current > 0.0 then (healthAtFire - current) * HitScale else MissPenalty
  }

  /** The resolution of a shot evaluated against the current health. */
  function Resolve<S>(p: PendingShot<S>, health: real): Resolution<S>
  {
    Resolution(p.shot.state, p.shot.action, ShotReward(p.shot.health, health))
  }

  /** The entries of s that satisfy keep, in their original order. */
  function Filter<T>(s: seq<T>, keep: T -> bool): (r: seq<T>)
    ensures |r| <= |s|
    ensures forall i | 0 <= i < |r| :: keep(r[i]) && r[i] in s
  {
    if s == [] then []
    else (if keep(s[0]) then [s[0]] else []) + Filter(s[1..], keep)
  }

  /** A shot whose countdown reaches zero or below on this tick's decrement. */
  predicate Due<S>(p: PendingShot<S>)
  {
    p.delay - 1 <= 0
  }

  /** A shot that survives this tick's decrement. */
  predicate Pending<S>(p: PendingShot<S>)
  {
    !Due(p)
  }

  /** Each shot with its countdown lowered by one. */
  function Decremented<S>(s: seq<PendingShot<S>>): seq<PendingShot<S>>
  {
    if s == [] then [] else [s[0].(delay := s[0].delay - 1)] + Decremented(s[1..])
  }

  /** Each shot resolved against the given health. */
  function ResolveAll<S>(s: seq<PendingShot<S>>, health: real): seq<Resolution<S>>
  {
    if s == [] then [] else [Resolve(s[0], health)] + ResolveAll(s[1..], health)
  }

  /** One pass of the countdown loop over a copy of the queue: the shots that
      reach zero or below are resolved, in queue order, and removed; the
      others stay, in queue order, one tick closer. */
  function CountDown<S>(queue: seq<PendingShot<S>>, health: real): (c: Countdown<S>)
    ensures |c.kept| + |c.resolved| == |queue|
    ensures forall i | 0 <= i < |c.kept| :: c.kept[i].delay >= 1
    ensures (forall i | 0 <= i < |queue| :: queue[i].delay > 1) ==>
      && c.resolved == []
      && |c.kept| == |queue|
      && forall i | 0 <= i < |queue| :: c.kept[i] == queue[i].(delay := queue[i].delay - 1)
    ensures (forall i | 0 <= i < |queue| :: queue[i].delay <= 1) ==>
      && c.kept == []
      && |c.resolved| == |queue|
      && forall i | 0 <= i < |queue| :: c.resolved[i] == Resolve(queue[i], health)
  {
    if queue == [] then Countdown([], [])
    else
      var p := queue[0];
      var rest := CountDown(queue[1..], health);
      if p.delay - 1 <= 0 then Countdown(rest.kept, [Resolve(p, health)] + rest.resolved)
      else Countdown([p.(delay := p.delay - 1)] + rest.kept, rest.resolved)
  }

  /** The countdown splits any queue, mixed or not: the kept shots are the
      pending ones in queue order, each one tick closer. */
  lemma {:induction false} CountDownKeeps<S>(queue: seq<PendingShot<S>>, health: real)
    ensures CountDown(queue, health).kept == Decremented(Filter(queue, Pending))
  {
    if queue != [] {
      var p, rest := queue[0], queue[1..];
      CountDownKeeps(rest, health);
      var kept := CountDown(rest, health).kept;
      var pending := Filter(rest, Pending);
      if Due(p) {
        assert CountDown(queue, health).kept == kept;
        assert Filter(queue, Pending) == pending;
      } else {
        assert CountDown(queue, health).kept == [p.(delay := p.delay - 1)] + kept;
        assert Filter(queue, Pending) == [p] + pending;
        assert ([p] + pending)[1..] == pending;
      }
    }
  }

  /** ... and the resolutions are the due shots in queue order, each against
      the current health. */
  lemma {:induction false} CountDownResolves<S>(queue: seq<PendingShot<S>>, health: real)
    ensures CountDown(queue, health).resolved == ResolveAll(Filter(queue, Due), health)
  {
    if queue != [] {
      var p, rest := queue[0], queue[1..];
      CountDownResolves(rest, health);
      var resolved := CountDown(rest, health).resolved;
      var due := Filter(rest, Due);
      if Due(p) {
        assert CountDown(queue, health).resolved == [Resolve(p, health)] + resolved;
        assert Filter(queue, Due) == [p] + due;
        assert ([p] + due)[1..] == due;
      } else {
        assert CountDown(queue, health).resolved == resolved;
        assert Filter(queue, Due) == due;
      }
    }
  }

  /** One tick: a fire decision is queued only when no shot is in flight, with
      the full delay, and closes the gate; then the queue counts down, and
      any resolution opens the gate again. */
  function Step<S>(tr: Tracker<S>, offer: Option<Shot<S>>, health: real): (r: TickResult<S>)
    ensures tr.waiting ==> |r.tracker.queue| <= |tr.queue|
    ensures r.resolved != [] ==> !r.tracker.waiting
    ensures r.resolved == [] ==> (r.tracker.waiting <==> tr.waiting || offer.Some?)
    ensures r.visited.Some? <==> tr.queue != [] || (offer.Some? && !tr.waiting)
  {
    var enqueue := offer.Some? && !tr.waiting;
    var queue := if enqueue then tr.queue + [PendingShot(offer.value, ShotDelay)] else tr.queue;
    var c := CountDown(queue, health);
    var waiting := tr.waiting || enqueue;
    TickResult(Tracker(c.kept, if c.resolved != [] then false else waiting),
               c.resolved,
               if queue == [] then None else Some(queue[|queue| - 1].shot))
  }

  /** Every queued shot carries an action index below n. */
  predicate ActionsBelow<S>(queue: seq<PendingShot<S>>, n: nat)
  {
    forall i | 0 <= i < |queue| :: queue[i].shot.action < n
  }

  /** The countdown only hands out actions that were queued. */
  lemma {:induction false} CountDownActions<S>(queue: seq<PendingShot<S>>, health: real, n: nat)
    requires ActionsBelow(queue, n)
    ensures var c := CountDown(queue, health);
      ActionsBelow(c.kept, n) && forall i | 0 <= i < |c.resolved| :: c.resolved[i].action < n
  {
    if queue != [] {
      var rest := queue[1..];
      assert ActionsBelow(rest, n) by {
        forall i | 0 <= i < |rest|
          ensures rest[i].shot.action < n
        {
          assert rest[i] == queue[i + 1];
        }
      }
      CountDownActions(rest, health, n);
    }
  }

  /** A tick keeps every action index in flight, resolved or visited below n
      when the queue and the offered shot respect that bound. */
  lemma StepActions<S>(tr: Tracker<S>, offer: Option<Shot<S>>, health: real, n: nat)
    requires ActionsBelow(tr.queue, n)
    requires offer.Some? ==> offer.value.action < n
    ensures var r := Step(tr, offer, health);
      && ActionsBelow(r.tracker.queue, n)
      && (forall i | 0 <= i < |r.resolved| :: r.resolved[i].action < n)
      && (r.visited.Some? ==> r.visited.value.action < n)
  {
    var enqueue := offer.Some? && !tr.waiting;
    var queue := if enqueue then tr.queue + [PendingShot(offer.value, ShotDelay)] else tr.queue;
    assert ActionsBelow(queue, n);
    CountDownActions(queue, health, n);
  }

  /** The single-flight invariant: at most one shot in flight, the gate is
      closed exactly while one is, and its countdown is between 1 and 149. */
  ghost predicate Inv<S>(tr: Tracker<S>)
  {
    && |tr.queue| <= 1
    && (tr.queue != [] <==> tr.waiting)
    && forall i | 0 <= i < |tr.queue| :: 1 <= tr.queue[i].delay < ShotDelay
  }

  /** A new tracker satisfies the invariant. */
  lemma InitialInv<S>()
    ensures Inv(Initial<S>())
  {
  }

  /** Every tick preserves the single-flight invariant. */
  lemma StepInv<S>(tr: Tracker<S>, offer: Option<Shot<S>>, health: real)
    requires Inv(tr)
    ensures Inv(Step(tr, offer, health).tracker)
  {
    var enqueue := offer.Some? && !tr.waiting;
    var queue := if enqueue then tr.queue + [PendingShot(offer.value, ShotDelay)] else tr.queue;
    assert |queue| <= 1;
    if queue != [] {
      var c := CountDown(queue, health);
      if queue[0].delay > 1 {
        assert c.kept == [queue[0].(delay := queue[0].delay - 1)];
      } else {
        assert c.kept == [] && |c.resolved| == 1;
      }
    }
  }

  /** The firing tick: with the gate open, a fire decision is queued and
      counted down once in the same tick, and nothing resolves. */
  lemma FireTick<S>(tr: Tracker<S>, shot: Shot<S>, health: real)
    requires Inv(tr) && !tr.waiting
    ensures var r := Step(tr, Some(shot), health);
      && r.tracker == Tracker([PendingShot(shot, ShotDelay - 1)], true)
      && r.resolved == []
      && r.visited == Some(shot)
  {
    var queue := [PendingShot(shot, ShotDelay)];
    assert tr.queue + [PendingShot(shot, ShotDelay)] == queue;
    var c := CountDown(queue, health);
    assert c.kept[0] == PendingShot(shot, ShotDelay - 1);
  }

  /** A tick with a shot in flight whose countdown is above 1: any fire
      decision is ignored, the countdown drops by one, nothing resolves. */
  lemma WaitTick<S>(p: PendingShot<S>, offer: Option<Shot<S>>, health: real)
    requires p.delay > 1
    ensures var r := Step(Tracker([p], true), offer, health);
      && r.tracker == Tracker([p.(delay := p.delay - 1)], true)
      && r.resolved == []
  {
    var c := CountDown([p], health);
    assert c.kept[0] == p.(delay := p.delay - 1);
  }

  /** The tick that brings the countdown to zero resolves the shot against the
      health seen at that tick, removes it and opens the gate. */
  lemma ResolveTick<S>(p: PendingShot<S>, offer: Option<Shot<S>>, health: real)
    requires p.delay == 1
    ensures var r := Step(Tracker([p], true), offer, health);
      && r.tracker == Tracker([], false)
      && r.resolved == [Resolution(p.shot.state, p.shot.action, ShotReward(p.shot.health, health))]
  {
    var c := CountDown([p], health);
    assert c.resolved[0] == Resolve(p, health);
  }

  /** One tick's inputs: the fire decision offered (if any) and the enemy's
      health. */
  datatype Input<S> = Input(offer: Option<Shot<S>>, health: real)

  /** The tracker after a run of ticks, and what each tick resolved. */
  datatype Trace<S> = Trace(last: Tracker<S>, resolved: seq<seq<Resolution<S>>>)

  function Run<S>(tr: Tracker<S>, ticks: seq<Input<S>>): (t: Trace<S>)
    ensures |t.resolved| == |ticks|
    decreases |ticks|
  {
    if ticks == [] then Trace(tr, [])
    else
      var r := Step(tr, ticks[0].offer, ticks[0].health);
      var rest := Run(r.tracker, ticks[1..]);
      Trace(rest.last, [r.resolved] + rest.resolved)
  }

  /** A shot in flight with countdown d is resolved on the d-th tick and on no
      earlier one, against the health seen on that tick, and the gate is open
      again afterwards, whatever fire decisions are offered meanwhile. */
  lemma {:induction false} CountdownToResolution<S>(p: PendingShot<S>, ticks: seq<Input<S>>)
    requires p.delay >= 1 && |ticks| == p.delay
    ensures var t := Run(Tracker([p], true), ticks);
      && (forall i | 0 <= i < |ticks| - 1 :: t.resolved[i] == [])
      && t.resolved[|ticks| - 1] ==
           [Resolution(p.shot.state, p.shot.action, ShotReward(p.shot.health, ticks[|ticks| - 1].health))]
      && t.last == Tracker([], false)
    decreases |ticks|
  {
    var r := Step(Tracker([p], true), ticks[0].offer, ticks[0].health);
    var rest := Run(r.tracker, ticks[1..]);
    assert Run(Tracker([p], true), ticks) == Trace(rest.last, [r.resolved] + rest.resolved);
    if p.delay == 1 {
      ResolveTick(p, ticks[0].offer, ticks[0].health);
    } else {
      WaitTick(p, ticks[0].offer, ticks[0].health);
      var p' := p.(delay := p.delay - 1);
      CountdownToResolution(p', ticks[1..]);
      assert ticks[1..][|ticks| - 2] == ticks[|ticks| - 1];
    }
  }

  /** A shot fired with the gate open is resolved exactly once: nothing is
      resolved during the 149 ticks after the firing tick's own decrement
      until the 150th decrement, which yields one resolution rewarded against
      the health seen on that tick, after which the gate is open again.
      Fire decisions offered meanwhile are ignored. */
  lemma ResolvedExactlyOnce<S>(tr: Tracker<S>, shot: Shot<S>, ticks: seq<Input<S>>)
    requires Inv(tr) && !tr.waiting
    requires |ticks| == ShotDelay && ticks[0].offer == Some(shot)
    ensures var t := Run(tr, ticks);
      && (forall i | 0 <= i < ShotDelay - 1 :: t.resolved[i] == [])
      && t.resolved[ShotDelay - 1] ==
           [Resolution(shot.state, shot.action, ShotReward(shot.health, ticks[ShotDelay - 1].health))]
      && t.last == Tracker([], false)
  {
    FireTick(tr, shot, ticks[0].health);
    var p := PendingShot(shot, ShotDelay - 1);
    CountdownToResolution(p, ticks[1..]);
    assert ticks[1..][ShotDelay - 2] == ticks[ShotDelay - 1];
  }
}
